=== FILE: README.md ===
# Mariana function wrappers, modelled in Dafny

This project models the bookkeeping layer of Mariana's `wrappers.py`: the
`Updates` aggregate that collects per-parameter update, gradient and name
entries; the `TheanoFunctionHandle` that names one output of one layer and
collects its input placeholders by walking the layer graph; and the
`TheanoFunction` that merges handles, compiles once, binds run-time arguments
by name and zips backend results to result names.

Python's `OrderedDict` is a sequence of key/value pairs with distinct keys;
overwriting a key keeps its position (`OrderedMaps`). Two reference semantics
sit beside it: `Dedup` (the first occurrence of each key, in order) for key
order, and `LastWins` (a plain map where later writes win) for values. The
wrappers' behaviour is stated against these references.

The backend is kept abstract:
- `theano.function` becomes a `BackendFn` record of what it was asked to build.
- Running a built function is an uninterpreted `Exec` parameter.
- A scenario's `apply` is an uninterpreted `Apply` parameter.

The function object is a value. `Phase` is `Uncompiled | Compiled`, and a
`builds` counter records every backend compilation. Python mutations that
survive an exception are kept: each operation returns an `Outcome` holding the
new state and a `Result`. Three such mutations matter here:
- slots added to `fct_inputs` before a `TypeError`;
- compilation done before a "no updates" error;
- result entries written before `StopIteration`.

Modules, in dependency order:
- `Results`: `Option` and `Result`.
- `Symbols`: opaque backend values and the errors.
- `OrderedMaps`: the ordered dictionary.
- `Layers`: layers, placeholders and the network.
- `Updates`: the update aggregate.
- `Handles`: function handles and the input walk.
- `Functions`: the function object.
- `Merging`: what `_compile` builds, stated against reference definitions.
- `Calls`: argument binding, `run`, and sequences of calls.

Behaviour of the code as written that the model keeps:
- In `_parseInputs`, assigning into the ordered dictionary never raises
  `KeyError`. The "not among this function arguments" branch therefore cannot
  be reached. Unknown names become new slots after the declared ones. The call
  fails the argument count only when some declared name is missing; when every
  declared name is supplied, the extra slots are passed on to the backend.
- `Updates.compile` reuses the loop variable of its first loop. Only the last
  output layer's scenari are applied to the upstream layers.
- `_addHandle` does not check whether the function is compiled. Only `handle + f`
  rejects a compiled `f`.
- `self.results` lives from compilation on. Every `run`, `getGradients` and
  `getUpdates` writes into the same dictionary and returns it.

## Model

| member | source | states |
|---|---|---|
| Updates.New | Mariana/wrappers.py:11-19 | A new aggregate has exactly one output layer, the given layers and cost, and three empty, aligned maps |
| Updates.Extend | Mariana/wrappers.py:21-25 | Extending with nothing changes nothing. Otherwise the output layers and layers are concatenated (self first) and the costs summed, while the three maps stay as they are |
| Updates.RecordAllSplits | Mariana/wrappers.py:32-35 | Performing the three assignments per scenario application is the same as three independent sequences of writes into `updates`, `gradients` and `param_names` |
| Updates.CompileKeyOrder | Mariana/wrappers.py:27-50 | After compile the three maps have the same keys in the same order: the keys already present, then each parameter store at its first application |
| Updates.CompileValues | Mariana/wrappers.py:27-50 | After compile each map denotes the old map overridden by its writes with later writes winning |
| Updates.CompileKeySet | Mariana/wrappers.py:28-44 | For a fresh aggregate, a store gets an entry iff it is set on an output layer that has scenari, or on an upstream layer when that layer or the last output layer has scenari |
| Updates.StepsProvenance | Mariana/wrappers.py:28-50 | Every application is some scenario applied to its owner, key and cost. The scenario belongs to the owning output layer, or, for an upstream layer, to the last output layer or the layer itself |
| Updates.CompileEntries | Mariana/wrappers.py:30-50 | Every entry of a freshly compiled aggregate comes from the last application touching its store. That one application fixes the update, the gradient and the name `"<owner>.<key>"` |
| Updates.OwnScenariLast | Mariana/wrappers.py:37-50 | After compile, a store set on an upstream layer that has scenari, and touched by no later upstream layer, holds the update and gradient of that layer's last scenario and the name `"<layer>.<key>"`, whatever the last output layer's scenari computed before |
| Updates.UpstreamSkipsEarlierOutputs | Mariana/wrappers.py:37-44 | A concrete case: an upstream parameter gets no entry when only an earlier output layer has scenari |
| Handles.Placeholders | Mariana/wrappers.py:70-72 | The placeholder writes of one kind succeed iff every such placeholder defines the stream, and each write is `("<layer>.<field>", variable for the stream)` |
| Handles.WalkIsVisitOrder | Mariana/wrappers.py:69-77 | The recursive walk writes exactly the input placeholders of the layers in depth-first pre-order (a layer once per path), into the given dictionary, and fails on the first missing stream |
| Handles.WalkValid | Mariana/wrappers.py:69-77 | The walk keeps the dictionary free of repeated keys |
| Handles.MakeHandle | Mariana/wrappers.py:79-91 | A built handle keeps its name, layer, output, stream, aggregate and options, and has distinct input names |
| Handles.HandleInputs | Mariana/wrappers.py:85-88 | A handle is built iff every placeholder met defines the stream. Its input names are the walk's writes followed by the owning layer's targets in first-write order, each bound to its last write |
| Functions.Plus | Mariana/wrappers.py:96-105 | `handle + x` has four outcomes. A compiled function gives `TypeError`. An uncompiled function gets the handle appended last and is returned. Another handle gives a new function of `[self, other]`. Anything else gives `TypeError` |
| Calls.PlusIsAddCall | Mariana/wrappers.py:96-100 | Adding a handle to an uncompiled function is the `_addHandle` call on that function. The handle goes after the existing handles, and the function's invariant is kept |
| Calls.PlusHandlesGood | Mariana/wrappers.py:101-105 | Adding two handles always succeeds. The result is an uncompiled function of exactly those two handles, in order, and it keeps the invariant when both update aggregates are well formed |
| Functions.New | Mariana/wrappers.py:122-132 | A new function holds the given handles, is not compiled, has no gradients or updates function and no build, and satisfies the model's invariant when its handles' aggregates are well formed |
| Calls.CompiledIffUsed | Mariana/wrappers.py:134-135 | After any sequence of calls, `isCompiled()` holds iff it held before or some call other than `_addHandle` was made |
| Merging.CompiledHasUpdates | Mariana/wrappers.py:93-94 | After compiling, the function has an aggregate iff some handle's `hasUpdates()` holds |
| Functions.AddHandle | Mariana/wrappers.py:137-138 | The handle is appended and nothing else changes, compiled or not |
| Functions.MergeAll | Mariana/wrappers.py:151-165 | The merged inputs, outputs and slots have distinct keys, and a merged aggregate is well formed |
| Functions.MergeAdoptsFirst | Mariana/wrappers.py:161-165 | There is an aggregate iff some handle carries one. It is the first such handle's, and the later `extend` calls leave its three maps alone |
| Merging.MergeOptions | Mariana/wrappers.py:150-152 | The merged backend options hold exactly the keys some handle sets, each with the value of the last handle that sets it |
| Functions.CompileFn | Mariana/wrappers.py:140-182 | Compiling a compiled function changes nothing. Otherwise it builds exactly once (the counter grows by one) and leaves the handles and secondary functions alone. The main function takes the merged input variables and output expressions in order, the compiled updates (or none) and the merged options. The slots are the merged ones and the results start empty |
| Merging.MergeIsSeparateLoops | Mariana/wrappers.py:151-165 | The single merge loop equals separate loops writing all inputs, all slots, all outputs and the aggregate chain |
| Merging.CompiledInputs | Mariana/wrappers.py:154-157 | The compiled inputs list every handle's input names in first-appearance order, each bound to the last handle's variable. `fct_inputs` has the same names in the same order, all `None` |
| Merging.CompiledOutputs | Mariana/wrappers.py:159 | The compiled outputs are keyed `"<layer>.<handle name>"` in handle order, each holding the last such handle's output |
| Merging.CompiledAggregate | Mariana/wrappers.py:161-171 | The aggregate is present iff some handle carries one. It is then `compile()` of the adopted aggregate extended by the later ones: all carried layer lists concatenated in handle order and the carried costs summed left to right. The main function gets its compiled updates, or none |
| Functions.ParseInputs | Mariana/wrappers.py:184-199 | Binding raises the argument-count `TypeError` exactly when the number supplied differs from the number of slots afterwards. Only the slots change |
| Calls.ParseSucceedsIff | Mariana/wrappers.py:184-199 | The slots grow by the unknown keys after the declared ones. Binding succeeds iff every declared name is supplied |
| Calls.ParseWithDeclaredNames | Mariana/wrappers.py:184-199 | When every supplied name is declared, binding succeeds iff the supplied and declared name sets are equal |
| Calls.ParseBinds | Mariana/wrappers.py:186-188 | After a successful bind the declared slots keep their leading positions, every supplied key holds its value, and no slot is empty |
| Functions.ZipInto | Mariana/wrappers.py:207-208 | Writing results raises `StopIteration` iff the backend returned fewer values than there are keys. Either way the dictionary then denotes the old one overridden by the pairs written, later writes winning, and keeps distinct keys |
| Functions.Run | Mariana/wrappers.py:201-210 | `run` compiles at most once, keeps a compiled function's merged state and main function, leaves the secondary functions alone, and fails only with `StopIteration` or `TypeError` |
| Calls.RunOutcome | Mariana/wrappers.py:184-210 | `run` raises the argument-count `TypeError` iff some declared slot is not supplied. It raises `StopIteration` iff every slot is supplied but the backend returns fewer values than there are outputs |
| Calls.RunResults | Mariana/wrappers.py:201-210 | A successful `run` returns the persistent results dictionary with the output/value pairs written into it in order. The k-th output key maps to the k-th value the backend returned for the slots. Keys stored earlier keep their positions and, unless they are outputs, their values. New output keys follow in first-write order |
| Functions.UseSecondary | Mariana/wrappers.py:220-221 | The secondary function is built only when absent (one more build) and always equals the gradients or updates function of the merged state |
| Functions.Extract | Mariana/wrappers.py:212-242 | On success the secondary function takes the merged inputs and yields the gradients or updates. The backend returned at least one value per parameter name, and the results map each name to its value. Builds grow by compilation plus at most one secondary |
| Calls.ExtractOutcome | Mariana/wrappers.py:212-242 | `getGradients`/`getUpdates` raise `TypeError` iff there is no aggregate or some declared slot is not supplied. They raise `StopIteration` iff there is an aggregate, every slot is supplied, and the secondary function returns fewer values than there are parameter names |
| Functions.GetGradients | Mariana/wrappers.py:212-227 | Without an aggregate, `getGradients` raises its `TypeError` right after compiling, before any argument is bound or any gradients function is built |
| Functions.GetUpdates | Mariana/wrappers.py:229-242 | Without an aggregate, `getUpdates` raises its `TypeError` right after compiling, before any argument is bound or any updates function is built |
| Calls.CompileOnce | Mariana/wrappers.py:140-142 | Over any sequence of calls every build is accounted to the main, gradients or updates function (at most three). Once compiled, the merged state and main function never change, and without gradient or update calls no secondary function appears |
| Calls.FreshFunctionBuilds | Mariana/wrappers.py:122-142 | From a fresh function, any sequence of calls builds at most three times, and at most once without gradient or update calls |
| OrderedMaps.PutAllKeys | Mariana/wrappers.py:154-157 | Writing a sequence of pairs into an ordered dictionary leaves its keys in first-appearance order |
| OrderedMaps.PutAllMeaning | Mariana/wrappers.py:154-157 | Writing a sequence of pairs into an ordered dictionary gives the old map overridden by the writes, later writes winning |
| OrderedMaps.LastWinsLast | Mariana/wrappers.py:33-34 | Under later-wins, each key holds the value of its last write |
| OrderedMaps.CoverIff | Mariana/wrappers.py:197 | Adding the supplied names to the declared ones leaves as many names as were supplied iff every declared name is among them |

## Left out

- `Mariana/initializations.py`: parameter initialisation draws random numbers and uses floating point and an external library. The file is not part of this model.
- The backend: `theano.function` compilation and execution, and what a scenario's `apply` computes, are foreign calls. They appear as the `BackendFn` record and the uninterpreted `Exec` and `Apply` parameters.
- The GPU/float64 warning (wrappers.py:175-180): it depends on device settings and the backend graph.
- Graph introspection and export (`getToposort`, `printGraph`, `dumpToImage`, `dumpToHTML`, wrappers.py:244-259): backend passthroughs and file I/O.
- `_develop`, `__call__` and `__getattr__` of the handle, and `__call__`, `__repr__` and `__str__` of the function (wrappers.py:107-118, 261-268): Python reflection glue around `run`. `TheanoFunction` never sets the `name` those printers read.
- Object aliasing is not modelled:
  - The adopted first aggregate is shared with its handle, so `extend` and `compile` also change that handle's aggregate.
  - `Updates.__init__` keeps the caller's layer list, and `extend` appends to it.
  - In the model every value is a copy.
- Merging.CompiledAggregate: when a later handle carries the adopted aggregate object again (the handles `[h1, h2, h1]` that `h1 + h2` followed by `h1 + f` builds), Python's in-place `extend` appends the already extended lists to themselves. The output layers become `[A, B, A, B]`, the cost `(c1 + c2) + (c1 + c2)`, and the last output layer is `B`. The model extends with the handle's own copy: `[A, B, A]`, cost `(c1 + c2) + c1`, last output layer `A`. Aggregates have no identity in the model, so this case is not reproduced. The contract also assumes `theano.function` never raises. A failed build would leave the function uncompiled with its aggregate already extended and compiled, and a retry would extend it again.
- Python 2 dictionary order:
  - A layer's attribute dictionary (`__dict__`) is taken in the order of `Layer.fields`.
  - `parameters` is taken in the order of its pairs.
  - The plain `inputs` dictionary given to `run`, `getGradients` and `getUpdates` is taken in the order of its pairs. That order decides where unknown names are appended as slots, and so the positional order of extra arguments.
- `v[stream]` on an `Inputs`/`Targets` placeholder is a map lookup. A missing stream is the `MissingStream` error; `Mariana/custom_types.py` is not part of this model.
- The layer graph is taken acyclic: layers are numbered so that inbound layers have smaller numbers. The source's inputs walk (Mariana/wrappers.py:69-77) keeps no visited set. On a cycle it recurses until Python's recursion limit, and the handle constructor raises `RuntimeError`. `Acyclic` excludes exactly these graphs, so the model gives them no outcome.
- Extra arguments: a call that supplies every declared name plus unknown ones passes the count check, so `run` hands the backend more positional values than the function was built for. What the backend then does is not modelled: the uninterpreted `Exec` cannot fail.
- `fct_inputs_varToName` is built but is read only in the unreachable `KeyError` branch, so no property is stated about it.
- Functions.Run: its own contract speaks of the state and the possible error kinds only. What a successful result holds is stated by `Calls.RunResults`, and exactly when each error is raised by `Calls.RunOutcome`.
- Updates.Compile: its own contract only keeps the aggregate well formed and the layers and cost unchanged. Key order, values and provenance are stated by the `Compile*` and `StepsProvenance` lemmas.

=== FILE: calls.dfy ===
/** Properties of the calls a user makes on a function: argument binding
    (`_parseInputs`), `run`, `getGradients`/`getUpdates`, and how often the
    backend compiles over any sequence of calls. */
module Calls {
  import opened Results
  import opened Symbols
  import opened OrderedMaps
  import opened Updates
  import opened Handles
  import opened Functions

  // ---------------------------------------------------------------------------
  // _parseInputs

  lemma BindKeys(args: OMap<ArgKey, Value>)
    ensures Keys(Bind(args)) == Keys(args)
  {
  }

  /** The slots grow by the unknown keys, appended after the declared ones in
      the order supplied; binding succeeds exactly when every declared slot is
      among the supplied keys. */
  lemma ParseSucceedsIff(f: Function, args: OMap<ArgKey, Value>)
    requires Good(f) && IsCompiled(f) && Valid(args)
    ensures var o := ParseInputs(f, args);
      var declared := Keys(f.phase.fctInputs);
      && Keys(o.state.phase.fctInputs) == Dedup(declared + Keys(args))
      && (o.result.Success? <==> forall k :: k in declared ==> k in Keys(args))
  {
    var declared := Keys(f.phase.fctInputs);
    var o := ParseInputs(f, args);
    PutAllKeys(f.phase.fctInputs, Bind(args));
    BindKeys(args);
    assert Keys(o.state.phase.fctInputs) == Dedup(declared + Keys(args));
    CoverIff(declared, Keys(args));
  }

  /** When every supplied key is declared, binding succeeds iff the supplied
      keys are exactly the declared ones. */
  lemma ParseWithDeclaredNames(f: Function, args: OMap<ArgKey, Value>)
    requires Good(f) && IsCompiled(f) && Valid(args)
    requires forall k :: k in Keys(args) ==> k in Keys(f.phase.fctInputs)
    ensures ParseInputs(f, args).result.Success? <==> Elements(Keys(args)) == Elements(Keys(f.phase.fctInputs))
  {
    var declared := Keys(f.phase.fctInputs);
    ParseSucceedsIff(f, args);
    if Elements(Keys(args)) == Elements(declared) {
      forall k | k in declared ensures k in Keys(args) {
        assert k in Elements(declared);
      }
    }
  }

  /** After a successful bind every slot holds a value, each supplied key holds
      its supplied value, and the declared slots keep their positions at the
      front: the positional call sees the values in declared order. */
  lemma ParseBinds(f: Function, args: OMap<ArgKey, Value>)
    requires Good(f) && IsCompiled(f) && Valid(args)
    requires ParseInputs(f, args).result.Success?
    ensures var slots := ParseInputs(f, args).state.phase.fctInputs;
      && |slots| >= |f.phase.fctInputs|
      && Keys(slots)[..|f.phase.fctInputs|] == Keys(f.phase.fctInputs)
      && (forall i :: 0 <= i < |args| ==> Get(slots, args[i].0) == Some(Some(args[i].1)))
      && (forall i :: 0 <= i < |slots| ==> slots[i].1.Some?)
  {
    var old_slots := f.phase.fctInputs;
    assert ParseInputs(f, args).state.phase.fctInputs == PutAll(old_slots, Bind(args));
    ParseSucceedsIff(f, args);
    DedupPrefix(Keys(old_slots), Keys(args));
    BindCovers(old_slots, args);
  }

  /** Writing every supplied argument over slots whose keys are all supplied
      leaves no slot empty and each supplied key holding its value. */
  lemma BindCovers(m: OMap<ArgKey, Option<Value>>, args: OMap<ArgKey, Value>)
    requires Valid(m) && Valid(args)
    requires forall k :: k in Keys(m) ==> k in Keys(args)
    ensures var slots := PutAll(m, Bind(args));
      && (forall i :: 0 <= i < |args| ==> Get(slots, args[i].0) == Some(Some(args[i].1)))
      && (forall i :: 0 <= i < |slots| ==> slots[i].1.Some?)
  {
    var b := Bind(args);
    var slots := PutAll(m, b);
    var meaning := ToMap(slots);
    assert meaning == ToMap(m) + LastWins(b) by {
      PutAllMeaning(m, b);
    }
    assert Distinct(Keys(b)) by {
      BindKeys(args);
    }
    forall i | 0 <= i < |args| ensures Get(slots, args[i].0) == Some(Some(args[i].1)) {
      assert b[i] == (args[i].0, Some(args[i].1));
      LastWinsDistinct(b);
      assert meaning[args[i].0] == Some(args[i].1);
    }
    forall i | 0 <= i < |slots| ensures slots[i].1.Some? {
      var k := slots[i].0;
      assert Get(slots, k) == Some(slots[i].1) by {
        GetAt(slots, i);
      }
      assert k in Keys(b) by {
        assert k in Keys(slots);
        PutAllKeys(m, b);
        BindKeys(args);
        DedupMembers(Keys(m) + Keys(b));
      }
      var j :| 0 <= j < |b| && b[j].0 == k;
      LastWinsDistinct(b);
      assert meaning[k] == b[j].1;
    }
  }

  // ---------------------------------------------------------------------------
  // run

  lemma ZipDistinct(ks: seq<string>, vs: seq<Value>)
    requires Distinct(ks) && |vs| >= |ks|
    ensures Keys(Zip(ks, vs)) == ks
    ensures forall i :: 0 <= i < |ks| ==> ks[i] in LastWins(Zip(ks, vs)) && LastWins(Zip(ks, vs))[ks[i]] == vs[i]
  {
    assert Keys(Zip(ks, vs)) == ks;
    LastWinsDistinct(Zip(ks, vs));
  }

  /** A successful `run` returns the results dictionary in which the k-th
      output key maps to the k-th value the backend returned for the bound
      arguments. Keys stored by earlier calls keep their positions and, unless
      they are output keys, their values; new output keys follow in order. */
  lemma RunResults(f: Function, args: OMap<ArgKey, Value>, apply: Apply, exec: Exec)
    requires Good(f) && Valid(args)
    ensures var o := Run(f, args, apply, exec);
      var c := o.state.phase;
      var outs := Keys(c.merged.outputs);
      var vals := exec(c.main, Values(c.fctInputs));
      o.result.Success? ==>
        && |vals| >= |outs|
        && o.result.value == c.results
        && (forall i :: 0 <= i < |outs| ==> Get(o.result.value, outs[i]) == Some(vals[i]))
        && (forall k :: k in Keys(CompileFn(f, apply).phase.results) ==> k in Keys(o.result.value))
        && o.result.value == PutAll(CompileFn(f, apply).phase.results, Zip(outs, vals))
        && Keys(o.result.value) == Dedup(Keys(CompileFn(f, apply).phase.results) + outs)
        && ToMap(o.result.value) == ToMap(CompileFn(f, apply).phase.results) + LastWins(Zip(outs, vals))
  {
    if Run(f, args, apply, exec).result.Failure? { return; }
    var f1 := CompileFn(f, apply);
    var p := ParseInputs(f1, args);
    var c := p.state.phase;
    var outs := Keys(c.merged.outputs);
    var vals := exec(c.main, Values(c.fctInputs));
    var o := Run(f, args, apply, exec);
    var z := Zip(outs, vals);
    assert o.result.value == PutAll(c.results, z);
    ZipDistinct(outs, vals);
    PutAllMeaning(c.results, z);
    PutAllKeys(c.results, z);
    assert Keys(z) == outs;
    forall i | 0 <= i < |outs| ensures Get(o.result.value, outs[i]) == Some(vals[i]) {
      assert outs[i] in ToMap(o.result.value);
    }
  }


  // ---------------------------------------------------------------------------
  // Sequences of calls

  /** A call a user can make on a function object. */
  datatype Call =
    | CompileCall
    | AddCall(h: Handle)
    | RunCall(args: OMap<ArgKey, Value>)
    | GradientsCall(args: OMap<ArgKey, Value>)
    | UpdatesCall(args: OMap<ArgKey, Value>)

  /** The argument of a call is a real dictionary and a handle's aggregate is
      one the code can build. */
  predicate CallOk(c: Call) {
    match c
    case CompileCall => true
    case AddCall(h) => h.updates.Some? ==> WellFormed(h.updates.value)
    case RunCall(args) => Valid(args)
    case GradientsCall(args) => Valid(args)
    case UpdatesCall(args) => Valid(args)
  }

  predicate IsSecondaryCall(c: Call) {
    c.GradientsCall? || c.UpdatesCall?
  }

  /** The state after one call, whether it returned or raised. */
  function Perform(f: Function, c: Call, apply: Apply, exec: Exec): (r: Function)
    requires Good(f) && CallOk(c)
    ensures Good(r)
  {
    match c
    case CompileCall => CompileFn(f, apply)
    case AddCall(h) =>
      AddKeepsGood(f, h);
      AddHandle(f, h)
    case RunCall(args) => Run(f, args, apply, exec).state
    case GradientsCall(args) => GetGradients(f, args, apply, exec).state
    case UpdatesCall(args) => GetUpdates(f, args, apply, exec).state
  }

  lemma AddKeepsGood(f: Function, h: Handle)
    requires Good(f) && (h.updates.Some? ==> WellFormed(h.updates.value))
    ensures Good(AddHandle(f, h))
  {
    var r := AddHandle(f, h);
    forall i | 0 <= i < |r.handles| ensures r.handles[i].updates.Some? ==> WellFormed(r.handles[i].updates.value) {
      if i < |f.handles| {
        assert r.handles[i] == f.handles[i];
      }
    }
  }

  function Replay(f: Function, calls: seq<Call>, apply: Apply, exec: Exec): (r: Function)
    requires Good(f) && forall i :: 0 <= i < |calls| ==> CallOk(calls[i])
    ensures Good(r)
    decreases |calls|
  {
    if calls == [] then f
    else Replay(Perform(f, calls[0], apply, exec), calls[1..], apply, exec)
  }

  /** Every backend build is accounted for by a built function: the main one,
      the gradients one and the updates one, each at most once. */
  predicate Accounted(f: Function) {
    f.builds == (if IsCompiled(f) then 1 else 0)
      + (if f.gradientsFct.Some? then 1 else 0)
      + (if f.updatesFct.Some? then 1 else 0)
  }

  lemma PerformAccounted(f: Function, c: Call, apply: Apply, exec: Exec)
    requires Good(f) && CallOk(c) && Accounted(f)
    ensures var r := Perform(f, c, apply, exec);
      && Accounted(r)
      && (IsCompiled(f) ==> IsCompiled(r) && (r.phase.merged, r.phase.main) == (f.phase.merged, f.phase.main))
      && (!IsSecondaryCall(c) ==> (r.gradientsFct, r.updatesFct) == (f.gradientsFct, f.updatesFct))
  {
    match c
    case CompileCall =>
      assert Perform(f, c, apply, exec) == CompileFn(f, apply);
    case AddCall(h) =>
      assert Perform(f, c, apply, exec) == AddHandle(f, h);
    case RunCall(args) =>
      assert Perform(f, c, apply, exec) == Run(f, args, apply, exec).state;
      RunAccounted(f, args, apply, exec);
    case GradientsCall(args) =>
      assert Perform(f, c, apply, exec) == Extract(f, GradientsOf, args, apply, exec).state;
      ExtractAccounted(f, GradientsOf, args, apply, exec);
    case UpdatesCall(args) =>
      assert Perform(f, c, apply, exec) == Extract(f, UpdatesOf, args, apply, exec).state;
      ExtractAccounted(f, UpdatesOf, args, apply, exec);
  }

  lemma RunAccounted(f: Function, args: OMap<ArgKey, Value>, apply: Apply, exec: Exec)
    requires Good(f) && Valid(args) && Accounted(f)
    ensures var r := Run(f, args, apply, exec).state;
      && Accounted(r) && IsCompiled(r)
      && (IsCompiled(f) ==> (r.phase.merged, r.phase.main) == (f.phase.merged, f.phase.main))
      && (r.gradientsFct, r.updatesFct) == (f.gradientsFct, f.updatesFct)
  {
  }

  lemma ExtractAccounted(f: Function, which: Secondary, args: OMap<ArgKey, Value>, apply: Apply, exec: Exec)
    requires Good(f) && Valid(args) && Accounted(f)
    ensures var r := Extract(f, which, args, apply, exec).state;
      && Accounted(r)
      && (IsCompiled(f) ==> IsCompiled(r) && (r.phase.merged, r.phase.main) == (f.phase.merged, f.phase.main))
  {
  }

  /** Over any sequence of calls the backend is asked to compile at most three
      times, once per kind of function; the main function and the merged
      state, once built, never change; without gradient or update calls only
      the main function is ever built. */
  lemma {:induction false} CompileOnce(f: Function, calls: seq<Call>, apply: Apply, exec: Exec)
    requires Good(f) && Accounted(f)
    requires forall i :: 0 <= i < |calls| ==> CallOk(calls[i])
    ensures var r := Replay(f, calls, apply, exec);
      && Accounted(r) && r.builds <= 3
      && (IsCompiled(f) ==> IsCompiled(r) && (r.phase.merged, r.phase.main) == (f.phase.merged, f.phase.main))
      && ((forall i :: 0 <= i < |calls| ==> !IsSecondaryCall(calls[i])) ==>
            (r.gradientsFct, r.updatesFct) == (f.gradientsFct, f.updatesFct))
    decreases |calls|
  {
    if calls != [] {
      var f1 := Perform(f, calls[0], apply, exec);
      PerformAccounted(f, calls[0], apply, exec);
      assert forall i :: 0 <= i < |calls[1..]| ==> calls[1..][i] == calls[i + 1];
      CompileOnce(f1, calls[1..], apply, exec);
    }
  }

  /** From a fresh function: at most one build unless gradients or updates are
      requested, and never more than three. */
  lemma FreshFunctionBuilds(hs: seq<Handle>, calls: seq<Call>, apply: Apply, exec: Exec)
    requires HandlesWellFormed(hs)
    requires forall i :: 0 <= i < |calls| ==> CallOk(calls[i])
    ensures Good(Functions.New(hs))
    ensures Replay(Functions.New(hs), calls, apply, exec).builds <= 3
    ensures (forall i :: 0 <= i < |calls| ==> !IsSecondaryCall(calls[i])) ==> Replay(Functions.New(hs), calls, apply, exec).builds <= 1
  {
    CompileOnce(Functions.New(hs), calls, apply, exec);
  }

  // ---------------------------------------------------------------------------
  // When calls fail

  /** Every slot the compiled function declares is among the supplied keys. */
  predicate AllSupplied(slots: OMap<ArgKey, Option<Value>>, args: OMap<ArgKey, Value>) {
    forall k :: k in Keys(slots) ==> k in Keys(args)
  }

  /** `run` raises the argument-count `TypeError` exactly when a declared slot
      is not supplied, and `StopIteration` exactly when every slot is supplied
      but the backend returns fewer values than there are outputs. */
  lemma RunOutcome(f: Function, args: OMap<ArgKey, Value>, apply: Apply, exec: Exec)
    requires Good(f) && Valid(args)
    ensures var c := CompileFn(f, apply).phase;
      var o := Run(f, args, apply, exec);
      var vals := exec(c.main, Values(o.state.phase.fctInputs));
      && ((o.result.Failure? && o.result.error.TypeError?) <==> !AllSupplied(c.fctInputs, args))
      && ((o.result.Failure? && o.result.error == StopIteration)
           <==> AllSupplied(c.fctInputs, args) && |vals| < |c.merged.outputs|)
  {
    var f1 := CompileFn(f, apply);
    ParseSucceedsIff(f1, args);
  }

  /** `getGradients`/`getUpdates` raise `TypeError` exactly when there is no
      aggregate or a declared slot is not supplied, and `StopIteration` exactly
      when the secondary function returns fewer values than there are
      parameter names. */
  lemma ExtractOutcome(f: Function, which: Secondary, args: OMap<ArgKey, Value>, apply: Apply, exec: Exec)
    requires Good(f) && Valid(args)
    ensures var f1 := CompileFn(f, apply);
      var c := f1.phase;
      var o := Extract(f, which, args, apply, exec);
      && ((o.result.Failure? && o.result.error.TypeError?)
           <==> c.merged.updates.None? || !AllSupplied(c.fctInputs, args))
      && ((o.result.Failure? && o.result.error == StopIteration)
           <==> && c.merged.updates.Some? && AllSupplied(c.fctInputs, args)
                && |exec(SecondaryOf(f1, which).value, Values(o.state.phase.fctInputs))| < |c.merged.updates.value.paramNames|)
  {
    var f1 := CompileFn(f, apply);
    if f1.phase.merged.updates.Some? {
      assert Extract(f, which, args, apply, exec) == ExtractCompiled(f1, which, args, exec);
      ExtractCompiledOutcome(f1, which, args, exec);
    }
  }

  lemma ExtractCompiledOutcome(f: Function, which: Secondary, args: OMap<ArgKey, Value>, exec: Exec)
    requires Good(f) && IsCompiled(f) && f.phase.merged.updates.Some? && Valid(args)
    ensures var o := ExtractCompiled(f, which, args, exec);
      && ((o.result.Failure? && o.result.error.TypeError?) <==> !AllSupplied(f.phase.fctInputs, args))
      && ((o.result.Failure? && o.result.error == StopIteration)
           <==> && AllSupplied(f.phase.fctInputs, args)
                && |exec(SecondaryOf(f, which).value, Values(o.state.phase.fctInputs))| < |f.phase.merged.updates.value.paramNames|)
  {
    ParseSucceedsIff(f, args);
    var p := ParseInputs(f, args);
    if p.result.Success? {
      assert SecondaryOf(p.state, which) == SecondaryOf(f, which);
      var (f3, fct) := UseSecondary(p.state, which);
      assert fct == SecondaryOf(f, which).value;
      assert f3.phase.fctInputs == p.state.phase.fctInputs;
    }
  }

  /** One call leaves the function compiled iff it was, or the call is not `_addHandle`. */
  lemma PerformCompiles(f: Function, c: Call, apply: Apply, exec: Exec)
    requires Good(f) && CallOk(c)
    ensures IsCompiled(Perform(f, c, apply, exec)) <==> IsCompiled(f) || !c.AddCall?
  {
  }

  /** `isCompiled()` turns true at the first call other than `_addHandle` and
      stays true: every other call compiles first. */
  lemma {:induction false} CompiledIffUsed(f: Function, calls: seq<Call>, apply: Apply, exec: Exec)
    requires Good(f) && forall i :: 0 <= i < |calls| ==> CallOk(calls[i])
    ensures IsCompiled(Replay(f, calls, apply, exec))
      <==> IsCompiled(f) || exists i :: 0 <= i < |calls| && !calls[i].AddCall?
    decreases |calls|
  {
    if calls != [] {
      var f1 := Perform(f, calls[0], apply, exec);
      assert forall i :: 0 <= i < |calls[1..]| ==> calls[1..][i] == calls[i + 1];
      CompiledIffUsed(f1, calls[1..], apply, exec);
      PerformCompiles(f, calls[0], apply, exec);
      if exists i :: 0 <= i < |calls| && !calls[i].AddCall? {
        var i :| 0 <= i < |calls| && !calls[i].AddCall?;
        if i > 0 {
          assert !calls[1..][i - 1].AddCall?;
        }
      }
    }
  }

  /** `handle + f` on an uncompiled function is `f._addHandle(handle)`: the
      handle goes last, and the function's invariant is kept. */
  lemma PlusIsAddCall(h: Handle, f: Function, apply: Apply, exec: Exec)
    requires Good(f) && !IsCompiled(f) && CallOk(AddCall(h))
    ensures Plus(h, FunctionAddend(f)) == Success(Perform(f, AddCall(h), apply, exec))
    ensures Good(Plus(h, FunctionAddend(f)).value)
    ensures Plus(h, FunctionAddend(f)).value.handles == f.handles + [h]
  {
  }

  /** Adding two handles gives a fresh function of the two, in order, that
      keeps the invariant when their aggregates are well formed. */
  lemma PlusHandlesGood(h: Handle, h2: Handle)
    requires CallOk(AddCall(h)) && CallOk(AddCall(h2))
    ensures Plus(h, HandleAddend(h2)).Success?
    ensures Good(Plus(h, HandleAddend(h2)).value) && !IsCompiled(Plus(h, HandleAddend(h2)).value)
    ensures Plus(h, HandleAddend(h2)).value.handles == [h, h2]
  {
    assert HandlesWellFormed([h, h2]);
  }
}

=== FILE: functions.dfy ===
/** `TheanoFunction` (wrappers.py:120-242) and handle composition
    (`TheanoFunctionHandle.__add__`, wrappers.py:96-105). A function is a list
    of handles plus a one-way phase, `Uncompiled` then `Compiled`. Compiling
    merges the handles' inputs, outputs, options and update aggregates and
    builds the backend function once. Every Python attribute that a call
    mutates, including mutations that happen before an exception, is part of
    the state each operation returns. */
module Functions {
  import opened Results
  import opened Symbols
  import opened OrderedMaps
  import opened Layers
  import opened Updates
  import opened Handles

  /** What one `theano.function(inputs=..., outputs=..., updates=..., **kwargs)` call was given. */
  datatype BackendFn = BackendFn(
    inputs: seq<Var>,
    outputs: seq<Expr>,
    updates: OMap<Var, Expr>,
    options: map<string, OptionValue>)

  /** Calling a compiled backend function on positional arguments; uninterpreted. */
  type Exec = (BackendFn, seq<Option<Value>>) -> seq<Value>

  /** The attributes `_compile` fills in from the handles. */
  datatype Merged = Merged(
    inputs: OMap<string, Var>,
    outputs: OMap<string, Expr>,
    updates: Option<Aggregate>,
    varToName: OMap<Var, string>,
    /** `fct_inputs` as the merge leaves it: one `None` slot per input name. */
    slots: OMap<ArgKey, Option<Value>>,
    options: map<string, OptionValue>,
    /** The handle whose aggregate object became the function's aggregate:
        in the source it is that very object, so the extensions and the
        compile are visible through the handle too. */
    adoptedFrom: Option<nat>)

  datatype Phase =
    | Uncompiled
    | Compiled(merged: Merged, main: BackendFn, fctInputs: OMap<ArgKey, Option<Value>>, results: OMap<string, Value>)

  datatype Function = Function(
    handles: seq<Handle>,
    phase: Phase,
    gradientsFct: Option<BackendFn>,
    updatesFct: Option<BackendFn>,
    /** How many backend functions have been built; not in the source, it
        counts the `theano.function` calls. */
    builds: nat)

  /** The state after a call, together with what the call returned or raised. */
  datatype Outcome<T> = Outcome(state: Function, result: Result<T, Error>)

  /** Every aggregate a handle carries has an output layer, as every aggregate
      built by `Updates(...)` and `extend` does. */
  predicate HandlesWellFormed(hs: seq<Handle>) {
    forall i :: 0 <= i < |hs| ==> hs[i].updates.Some? ==> WellFormed(hs[i].updates.value)
  }

  /** Which secondary backend function a call extracts. */
  datatype Secondary = GradientsOf | UpdatesOf

  /** The invariant of every reachable function state. */
  predicate Good(f: Function) {
    && HandlesWellFormed(f.handles)
    && (f.phase.Compiled? ==>
         && (f.phase.merged.updates.Some? ==> WellFormed(f.phase.merged.updates.value))
         && Valid(f.phase.merged.inputs) && Valid(f.phase.merged.outputs)
         && Valid(f.phase.fctInputs) && Valid(f.phase.results))
    && (f.gradientsFct.Some? ==> SecondaryOf(f, GradientsOf) == f.gradientsFct)
    && (f.updatesFct.Some? ==> SecondaryOf(f, UpdatesOf) == f.updatesFct)
  }

  /** The secondary backend function a compiled function with an aggregate
      builds: same inputs and options, the gradients or updates as outputs. */
  function SecondaryOf(f: Function, which: Secondary): Option<BackendFn> {
    if f.phase.Uncompiled? || f.phase.merged.updates.None? then None
    else
      var m := f.phase.merged;
      var agg := m.updates.value;
      Some(BackendFn(Values(m.inputs), Values(if which == GradientsOf then agg.gradients else agg.updates), [], m.options))
  }

  /** `TheanoFunction(theano_handles)`. */
  function New(hs: seq<Handle>): (f: Function)
    ensures f.handles == hs && !IsCompiled(f) && f.gradientsFct.None? && f.updatesFct.None? && f.builds == 0
    ensures HandlesWellFormed(hs) ==> Good(f)
  {
    Function(hs, Uncompiled, None, None, 0)
  }

  /** `isCompiled()`: the main backend function exists. */
  predicate IsCompiled(f: Function) {
    f.phase.Compiled?
  }

  /** `_addHandle(h)`: appends, compiled or not. */
  function AddHandle(f: Function, h: Handle): (r: Function)
    ensures r.handles == f.handles + [h]
    ensures (r.phase, r.gradientsFct, r.updatesFct, r.builds) == (f.phase, f.gradientsFct, f.updatesFct, f.builds)
  {
    f.(handles := f.handles + [h])
  }

  /** The right operand of `handle + other`. */
  datatype Addend = FunctionAddend(f: Function) | HandleAddend(h: Handle) | OtherAddend

  /** `h + other` (wrappers.py:96-105): joins an uncompiled function (the handle
      goes last), pairs two handles, or raises `TypeError`. */
  function Plus(h: Handle, other: Addend): (r: Result<Function, Error>)
    ensures r.Success? <==> other.HandleAddend? || (other.FunctionAddend? && !IsCompiled(other.f))
    ensures other.HandleAddend? ==> r == Success(New([h, other.h]))
    ensures other.FunctionAddend? && !IsCompiled(other.f) ==>
      r == Success(other.f.(handles := other.f.handles + [h]))
    ensures r.Failure? ==> r.error.TypeError?
  {
    match other
    case FunctionAddend(g) =>
      if IsCompiled(g) then Failure(TypeError(AddedCompiledFunction))
      else Success(AddHandle(g, h))
    case HandleAddend(h2) => Success(New([h, h2]))
    case OtherAddend => Failure(TypeError(AddedNonFunction))
  }

  // ---------------------------------------------------------------------------
  // Merging the handles (wrappers.py:143-165)

  function EmptyMerged(): Merged {
    Merged([], [], None, [], [], map[], None)
  }

  /** `(v, k)` for every `(k, v)`. */
  function Swap(es: seq<(string, Var)>): seq<(Var, string)> {
    seq(|es|, i requires 0 <= i < |es| => (es[i].1, es[i].0))
  }

  /** The output key of a handle, `"<layer>.<handle name>"`. */
  function OutputKey(h: Handle): string {
    Qualified(h.layer.name, h.name)
  }

  /** `if handle.hasUpdates(): adopt the first aggregate, extend it with the later ones`. */
  function AdoptOrExtend(updates: Option<Aggregate>, adopted: Option<nat>, h: Handle, i: nat): (Option<Aggregate>, Option<nat>) {
    if !HasUpdates(h) then (updates, adopted)
    else if updates.None? then (h.updates, Some(i))
    else (Some(Extend(updates.value, h.updates)), adopted)
  }

  /** One iteration of the merge loop, for the handle at position `i`. */
  function MergeOne(m: Merged, h: Handle, i: nat): Merged {
    var options := m.options + h.options;
    var inputs := PutAll(m.inputs, h.inputs);
    var varToName := PutAll(m.varToName, Swap(h.inputs));
    var slots := PutAll(m.slots, EmptySlots(h.inputs));
    var outputs := Put(m.outputs, OutputKey(h), h.output);
    var (updates, adopted) := AdoptOrExtend(m.updates, m.adoptedFrom, h, i);
    Merged(inputs, outputs, updates, varToName, slots, options, adopted)
  }

  /** The merge loop over all handles, in order. */
  function MergeAll(hs: seq<Handle>): (m: Merged)
    requires HandlesWellFormed(hs)
    ensures Valid(m.inputs) && Valid(m.outputs) && Valid(m.slots)
    ensures m.updates.Some? ==> WellFormed(m.updates.value)
    decreases |hs|
  {
    if hs == [] then EmptyMerged()
    else
      var init := hs[..|hs| - 1];
      assert HandlesWellFormed(init) by {
        forall i | 0 <= i < |init| ensures init[i].updates.Some? ==> WellFormed(init[i].updates.value) {
          assert init[i] == hs[i];
        }
      }
      MergeOne(MergeAll(init), hs[|hs| - 1], |hs| - 1)
  }

  /** The aggregate part of the merge loop on its own. */
  function UpdatesLoop(hs: seq<Handle>): (Option<Aggregate>, Option<nat>)
    decreases |hs|
  {
    if hs == [] then (None, None)
    else
      var (u, a) := UpdatesLoop(hs[..|hs| - 1]);
      AdoptOrExtend(u, a, hs[|hs| - 1], |hs| - 1)
  }

  /** The first handle carrying an aggregate supplies it (its maps unchanged by
      the later `extend` calls); without such a handle there is no aggregate. */
  lemma {:induction false} MergeAdoptsFirst(hs: seq<Handle>)
    ensures var (u, a) := UpdatesLoop(hs);
      && (a.None? <==> u.None?)
      && (a.None? <==> forall j :: 0 <= j < |hs| ==> !HasUpdates(hs[j]))
      && (a.Some? ==>
           && a.value < |hs| && HasUpdates(hs[a.value])
           && (forall j :: 0 <= j < a.value ==> !HasUpdates(hs[j]))
           && u.value.updates == hs[a.value].updates.value.updates
           && u.value.gradients == hs[a.value].updates.value.gradients
           && u.value.paramNames == hs[a.value].updates.value.paramNames)
    decreases |hs|
  {
    if hs != [] {
      var init := hs[..|hs| - 1];
      MergeAdoptsFirst(init);
      assert forall j :: 0 <= j < |init| ==> init[j] == hs[j];
    }
  }

  /** The arguments slots: one `None` per input name. */
  function EmptySlots(inputs: OMap<string, Var>): OMap<ArgKey, Option<Value>> {
    seq(|inputs|, i requires 0 <= i < |inputs| => (Named(inputs[i].0), None))
  }

  /** `_compile()` (wrappers.py:140-182): a no-op once compiled; otherwise merge,
      compile the merged aggregate, and build the main backend function. */
  function CompileFn(f: Function, apply: Apply): (r: Function)
    requires Good(f)
    ensures Good(r) && IsCompiled(r)
    ensures IsCompiled(f) ==> r == f
    ensures !IsCompiled(f) ==> r.builds == f.builds + 1
    ensures (r.handles, r.gradientsFct, r.updatesFct) == (f.handles, f.gradientsFct, f.updatesFct)
    ensures !IsCompiled(f) ==>
      var c := r.phase;
      && c.main.inputs == Values(c.merged.inputs)
      && c.main.outputs == Values(c.merged.outputs)
      && c.main.options == c.merged.options
      && c.main.updates == (if c.merged.updates.Some? then c.merged.updates.value.updates else [])
      && c.fctInputs == c.merged.slots && c.results == []
  {
    if IsCompiled(f) then f
    else
      var m := MergeAll(f.handles);
      var agg := if m.updates.Some? then Some(Updates.Compile(m.updates.value, apply)) else None;
      var updates := if agg.Some? then agg.value.updates else [];
      var main := BackendFn(Values(m.inputs), Values(m.outputs), updates, m.options);
      f.(phase := Compiled(m.(updates := agg), main, m.slots, []), builds := f.builds + 1)
  }

  // ---------------------------------------------------------------------------
  // Binding arguments and running

  /** The writes `fct_inputs[k] = inputs[k]` for every supplied entry. */
  function Bind(args: OMap<ArgKey, Value>): seq<(ArgKey, Option<Value>)> {
    seq(|args|, i requires 0 <= i < |args| => (args[i].0, Some(args[i].1)))
  }

  /** `_parseInputs(inputs)` (wrappers.py:184-199). Every supplied key is
      written into `fct_inputs`, so an unknown key becomes a new slot (the
      `KeyError` branch cannot be reached); then the count of supplied entries
      must equal the number of slots. */
  function ParseInputs(f: Function, args: OMap<ArgKey, Value>): (o: Outcome<()>)
    requires Good(f) && IsCompiled(f) && Valid(args)
    ensures Good(o.state)
    ensures o.state.phase.Compiled? && o.state == f.(phase := o.state.phase)
    ensures o.state.phase == f.phase.(fctInputs := o.state.phase.fctInputs)
    ensures o.result.Failure? ==> o.result.error.TypeError? && o.result.error.reason.ArgumentCount?
    ensures o.result.Failure? <==> |args| != |o.state.phase.fctInputs|
  {
    var slots := PutAll(f.phase.fctInputs, Bind(args));
    var f' := f.(phase := f.phase.(fctInputs := slots));
    if |args| != |slots| then Outcome(f', Failure(TypeError(ArgumentCount(Keys(slots), |args|))))
    else Outcome(f', Success(()))
  }

  /** `for k in keys: results[k] = fres.next()`: writes as many pairs as the
      backend returned values, raising `StopIteration` if it ran out. The
      writes made before the exception stay in `results`. */
  function ZipInto(results: OMap<string, Value>, keys: seq<string>, vals: seq<Value>): (r: (OMap<string, Value>, Result<(), Error>))
    ensures Valid(results) ==> Valid(r.0)
    ensures ToMap(r.0) == ToMap(results) + LastWins(Zip(keys, vals))
    ensures r.1.Failure? <==> |vals| < |keys|
    ensures r.1.Failure? ==> r.1.error == StopIteration
  {
    PutAllMeaning(results, Zip(keys, vals));
    (PutAll(results, Zip(keys, vals)), if |vals| < |keys| then Failure(StopIteration) else Success(()))
  }

  /** `run(inputs)` (wrappers.py:201-210). */
  function Run(f: Function, args: OMap<ArgKey, Value>, apply: Apply, exec: Exec): (o: Outcome<OMap<string, Value>>)
    requires Good(f) && Valid(args)
    ensures Good(o.state) && IsCompiled(o.state)
    ensures (o.state.handles, o.state.gradientsFct, o.state.updatesFct) == (f.handles, f.gradientsFct, f.updatesFct)
    ensures o.state.builds == f.builds + (if IsCompiled(f) then 0 else 1)
    ensures IsCompiled(f) ==> (o.state.phase.merged, o.state.phase.main) == (f.phase.merged, f.phase.main)
    ensures o.result.Failure? ==> o.result.error == StopIteration || o.result.error.TypeError?
  {
    var f1 := CompileFn(f, apply);
    var p := ParseInputs(f1, args);
    if p.result.Failure? then Outcome(p.state, Failure(p.result.error))
    else
      var f2 := p.state;
      var vals := exec(f2.phase.main, Values(f2.phase.fctInputs));
      var (results, status) := ZipInto(f2.phase.results, Keys(f2.phase.merged.outputs), vals);
      var f3 := f2.(phase := f2.phase.(results := results));
      Outcome(f3, if status.Failure? then Failure(status.error) else Success(results))
  }

  /** The secondary backend function `which`, built and stored on first use. */
  function UseSecondary(f: Function, which: Secondary): (r: (Function, BackendFn))
    requires Good(f) && SecondaryOf(f, which).Some?
    ensures Good(r.0) && (r.0.handles, r.0.phase) == (f.handles, f.phase)
    ensures SecondaryOf(f, which) == Some(r.1)
    ensures which == GradientsOf ==> r.0.gradientsFct == Some(r.1) && r.0.updatesFct == f.updatesFct
    ensures which == UpdatesOf ==> r.0.updatesFct == Some(r.1) && r.0.gradientsFct == f.gradientsFct
    ensures r.0.builds == f.builds + (if (if which == GradientsOf then f.gradientsFct else f.updatesFct).None? then 1 else 0)
  {
    var existing := if which == GradientsOf then f.gradientsFct else f.updatesFct;
    var fct := if existing.Some? then existing.value else SecondaryOf(f, which).value;
    var r :=
      if existing.Some? then f
      else if which == GradientsOf then f.(gradientsFct := Some(fct), builds := f.builds + 1)
      else f.(updatesFct := Some(fct), builds := f.builds + 1);
    assert SecondaryOf(r, GradientsOf) == SecondaryOf(f, GradientsOf);
    assert SecondaryOf(r, UpdatesOf) == SecondaryOf(f, UpdatesOf);
    (r, fct)
  }

  /** `getGradients(inputs)` / `getUpdates(inputs)` (wrappers.py:212-242): the
      aggregate is checked right after compiling, before the arguments are
      parsed; the secondary backend function is built on first use. */
  function Extract(f: Function, which: Secondary, args: OMap<ArgKey, Value>, apply: Apply, exec: Exec): (o: Outcome<OMap<string, Value>>)
    requires Good(f) && Valid(args)
    ensures Good(o.state) && IsCompiled(o.state)
    ensures o.state.handles == f.handles
    ensures IsCompiled(f) ==> (o.state.phase.merged, o.state.phase.main) == (f.phase.merged, f.phase.main)
    ensures (which == GradientsOf ==> o.state.updatesFct == f.updatesFct)
    ensures (which == UpdatesOf ==> o.state.gradientsFct == f.gradientsFct)
    ensures f.gradientsFct.Some? ==> o.state.gradientsFct == f.gradientsFct
    ensures f.updatesFct.Some? ==> o.state.updatesFct == f.updatesFct
    ensures o.state.builds == f.builds + (if IsCompiled(f) then 0 else 1)
      + (if o.state.gradientsFct != f.gradientsFct || o.state.updatesFct != f.updatesFct then 1 else 0)
    ensures o.result.Success? ==>
      var c := o.state.phase;
      var fct := if which == GradientsOf then o.state.gradientsFct else o.state.updatesFct;
      && c.merged.updates.Some? && fct.Some?
      && var agg := c.merged.updates.value;
      && fct.value.inputs == Values(c.merged.inputs)
      && fct.value.outputs == Values(if which == GradientsOf then agg.gradients else agg.updates)
      && Keys(agg.gradients) == Keys(agg.paramNames) && Keys(agg.updates) == Keys(agg.paramNames)
      && var vals := exec(fct.value, Values(c.fctInputs));
      && |vals| >= |agg.paramNames|
      && o.result.value == c.results == PutAll(CompileFn(f, apply).phase.results, Zip(Values(agg.paramNames), vals))
  {
    var f1 := CompileFn(f, apply);
    if f1.phase.merged.updates.None? then
      Outcome(f1, Failure(TypeError(if which == GradientsOf then NoUpdatesForGradients else NoUpdates)))
    else
      ExtractCompiled(f1, which, args, exec)
  }

  /** The part of `getGradients`/`getUpdates` after the aggregate check. */
  function ExtractCompiled(f: Function, which: Secondary, args: OMap<ArgKey, Value>, exec: Exec): (o: Outcome<OMap<string, Value>>)
    requires Good(f) && IsCompiled(f) && f.phase.merged.updates.Some? && Valid(args)
    ensures Good(o.state) && IsCompiled(o.state)
    ensures o.state.handles == f.handles
    ensures (o.state.phase.merged, o.state.phase.main) == (f.phase.merged, f.phase.main)
    ensures which == GradientsOf ==> o.state.updatesFct == f.updatesFct
    ensures which == UpdatesOf ==> o.state.gradientsFct == f.gradientsFct
    ensures f.gradientsFct.Some? ==> o.state.gradientsFct == f.gradientsFct
    ensures f.updatesFct.Some? ==> o.state.updatesFct == f.updatesFct
    ensures o.state.builds == f.builds
      + (if o.state.gradientsFct != f.gradientsFct || o.state.updatesFct != f.updatesFct then 1 else 0)
    ensures o.result.Success? ==>
      var c := o.state.phase;
      var agg := c.merged.updates.value;
      var fct := if which == GradientsOf then o.state.gradientsFct else o.state.updatesFct;
      && fct.Some? && fct == SecondaryOf(f, which)
      && var vals := exec(fct.value, Values(c.fctInputs));
      && |vals| >= |agg.paramNames|
      && o.result.value == c.results == PutAll(f.phase.results, Zip(Values(agg.paramNames), vals))
  {
    var agg := f.phase.merged.updates.value;
    var p := ParseInputs(f, args);
    if p.result.Failure? then Outcome(p.state, Failure(p.result.error))
    else
      var (f3, fct) := UseSecondary(p.state, which);
      var vals := exec(fct, Values(f3.phase.fctInputs));
      var (results, status) := ZipInto(f3.phase.results, Values(agg.paramNames), vals);
      var f4 := f3.(phase := f3.phase.(results := results));
      Outcome(f4, if status.Failure? then Failure(status.error) else Success(results))
  }

  function GetGradients(f: Function, args: OMap<ArgKey, Value>, apply: Apply, exec: Exec): (o: Outcome<OMap<string, Value>>)
    requires Good(f) && Valid(args)
    ensures o == Extract(f, GradientsOf, args, apply, exec)
    ensures CompileFn(f, apply).phase.merged.updates.None? ==>
      o == Outcome(CompileFn(f, apply), Failure(TypeError(NoUpdatesForGradients)))
  {
    Extract(f, GradientsOf, args, apply, exec)
  }

  function GetUpdates(f: Function, args: OMap<ArgKey, Value>, apply: Apply, exec: Exec): (o: Outcome<OMap<string, Value>>)
    requires Good(f) && Valid(args)
    ensures o == Extract(f, UpdatesOf, args, apply, exec)
    ensures CompileFn(f, apply).phase.merged.updates.None? ==>
      o == Outcome(CompileFn(f, apply), Failure(TypeError(NoUpdates)))
  {
    Extract(f, UpdatesOf, args, apply, exec)
  }
}

=== FILE: handles.dfy ===
/** `TheanoFunctionHandle` (wrappers.py:52-105): one named output of one layer
    for one stream, with the inputs it depends on. The inputs are found by a
    depth-first walk from the owning layer over the network's inbound
    connections, collecting input placeholders, and then adding the owning
    layer's target placeholders. */
module Handles {
  import opened Results
  import opened Symbols
  import opened OrderedMaps
  import opened Layers
  import opened Updates

  datatype Handle = Handle(
    name: string,
    layer: Layer,
    output: Expr,
    stream: string,
    updates: Option<Aggregate>,
    /** `**theano_kwargs`. */
    options: map<string, OptionValue>,
    /** Qualified placeholder name to the variable bound for this handle's stream. */
    inputs: OMap<string, Var>)

  /** A placeholder of the given kind on `layer` that defines `stream` yields this write. */
  ghost predicate YieldsWrite(layer: Layer, kind: FieldKind, stream: string, e: (string, Var)) {
    exists f :: f in layer.fields && f.kind == kind && stream in f.streams
      && e == (Qualified(layer.name, f.name), f.streams[stream])
  }

  /** Every placeholder of the given kind defines the stream. */
  ghost predicate Resolves(layer: Layer, kind: FieldKind, stream: string) {
    forall f :: f in layer.fields && f.kind == kind ==> stream in f.streams
  }

  /** `for k, v in layer.__dict__.iteritems(): if v.__class__ is <kind>: d["layer.k"] = v[stream]`,
      as the list of writes it performs; `v[stream]` fails on a placeholder
      without that stream. */
  function Placeholders(layer: Layer, kind: FieldKind, stream: string): (r: Result<seq<(string, Var)>, Error>)
    ensures r.Success? <==> Resolves(layer, kind, stream)
    ensures r.Success? ==> forall e :: e in r.value <==> YieldsWrite(layer, kind, stream, e)
  {
    FieldWrites(layer.name, layer.fields, kind, stream)
  }

  function FieldWrites(layerName: string, fields: seq<Field>, kind: FieldKind, stream: string): (r: Result<seq<(string, Var)>, Error>)
    ensures r.Success? <==> forall f :: f in fields && f.kind == kind ==> stream in f.streams
    ensures r.Success? ==> forall e :: e in r.value <==>
      exists f :: f in fields && f.kind == kind && stream in f.streams && e == (Qualified(layerName, f.name), f.streams[stream])
    decreases |fields|
  {
    if fields == [] then Success([])
    else
      var f := fields[0];
      assert forall g :: g in fields <==> g == f || g in fields[1..];
      if f.kind != kind then FieldWrites(layerName, fields[1..], kind, stream)
      else if stream !in f.streams then Failure(MissingStream(layerName, f.name, stream))
      else
        var rest :- FieldWrites(layerName, fields[1..], kind, stream);
        Success([(Qualified(layerName, f.name), f.streams[stream])] + rest)
  }

  /** `_bckTrckInputs(current_layer, stream, inputs)` (wrappers.py:69-77): the
      layer's input placeholders, then each inbound layer in turn. There is no
      visited set; a layer reached twice writes its keys again. */
  function Walk(net: Network, l: nat, stream: string, acc: OMap<string, Var>): Result<OMap<string, Var>, Error>
    requires Acyclic(net) && l < |net.layers|
    decreases l, 1
  {
    var writes :- Placeholders(net.layers[l], InputsField, stream);
    WalkAll(net, net.inConnections[l], l, stream, PutAll(acc, writes))
  }

  function WalkAll(net: Network, ls: seq<nat>, bound: nat, stream: string, acc: OMap<string, Var>): Result<OMap<string, Var>, Error>
    requires Acyclic(net) && bound <= |net.layers|
    requires forall j :: 0 <= j < |ls| ==> ls[j] < bound
    decreases bound, 0, |ls|
  {
    if ls == [] then Success(acc)
    else
      var acc' :- Walk(net, ls[0], stream, acc);
      WalkAll(net, ls[1..], bound, stream, acc')
  }

  /** Reference order of the walk: the layers in depth-first pre-order, with a
      layer listed once per path that reaches it. */
  function Visits(net: Network, l: nat): seq<nat>
    requires Acyclic(net) && l < |net.layers|
    decreases l, 1
  {
    [l] + VisitsAll(net, net.inConnections[l], l)
  }

  function VisitsAll(net: Network, ls: seq<nat>, bound: nat): seq<nat>
    requires Acyclic(net) && bound <= |net.layers|
    requires forall j :: 0 <= j < |ls| ==> ls[j] < bound
    decreases bound, 0, |ls|
  {
    if ls == [] then [] else Visits(net, ls[0]) + VisitsAll(net, ls[1..], bound)
  }

  /** Reference writes of the walk: each visited layer's input placeholders in visiting order. */
  function InputWrites(net: Network, visits: seq<nat>, stream: string): Result<seq<(string, Var)>, Error>
    requires forall j :: 0 <= j < |visits| ==> visits[j] < |net.layers|
    decreases |visits|
  {
    if visits == [] then Success([])
    else
      var first :- Placeholders(net.layers[visits[0]], InputsField, stream);
      var rest :- InputWrites(net, visits[1..], stream);
      Success(first + rest)
  }

  /** `TheanoFunctionHandle(name, layer, output, stream, updates, **theano_kwargs)`
      (wrappers.py:60-91). */
  function MakeHandle(name: string, net: Network, l: nat, output: Expr, stream: string,
                      updates: Option<Aggregate>, options: map<string, OptionValue>): (r: Result<Handle, Error>)
    requires Acyclic(net) && l < |net.layers|
    ensures r.Success? ==>
      && Valid(r.value.inputs)
      && (r.value.name, r.value.layer, r.value.output) == (name, net.layers[l], output)
      && (r.value.stream, r.value.updates, r.value.options) == (stream, updates, options)
  {
    var walked :- Walk(net, l, stream, []);
    var targets :- Placeholders(net.layers[l], TargetsField, stream);
    WalkValid(net, l, stream, []);
    Success(Handle(name, net.layers[l], output, stream, updates, options, PutAll(walked, targets)))
  }

  /** `handle.hasUpdates()`. */
  predicate HasUpdates(h: Handle) {
    h.updates.Some?
  }

  // ---------------------------------------------------------------------------
  // Lemmas

  lemma VisitsInRange(net: Network, l: nat)
    requires Acyclic(net) && l < |net.layers|
    ensures forall j :: 0 <= j < |Visits(net, l)| ==> Visits(net, l)[j] < |net.layers|
    decreases l, 1
  {
    VisitsAllInRange(net, net.inConnections[l], l);
  }

  lemma VisitsAllInRange(net: Network, ls: seq<nat>, bound: nat)
    requires Acyclic(net) && bound <= |net.layers|
    requires forall j :: 0 <= j < |ls| ==> ls[j] < bound
    ensures forall j :: 0 <= j < |VisitsAll(net, ls, bound)| ==> VisitsAll(net, ls, bound)[j] < |net.layers|
    decreases bound, 0, |ls|
  {
    if ls != [] {
      VisitsInRange(net, ls[0]);
      VisitsAllInRange(net, ls[1..], bound);
    }
  }

  lemma {:induction false} InputWritesConcat(net: Network, a: seq<nat>, b: seq<nat>, stream: string)
    requires forall j :: 0 <= j < |a| ==> a[j] < |net.layers|
    requires forall j :: 0 <= j < |b| ==> b[j] < |net.layers|
    ensures forall j :: 0 <= j < |a + b| ==> (a + b)[j] < |net.layers|
    ensures InputWrites(net, a + b, stream) ==
      (match InputWrites(net, a, stream)
       case Failure(e) => Failure(e)
       case Success(x) =>
         match InputWrites(net, b, stream)
         case Failure(e) => Failure(e)
         case Success(y) => Success(x + y))
    decreases |a|
  {
    if a == [] {
      assert a + b == b;
      if InputWrites(net, b, stream).Success? {
        assert [] + InputWrites(net, b, stream).value == InputWrites(net, b, stream).value;
      }
    } else {
      assert (a + b)[1..] == a[1..] + b;
      InputWritesConcat(net, a[1..], b, stream);
      var first := Placeholders(net.layers[a[0]], InputsField, stream);
      if first.Success? && InputWrites(net, a[1..], stream).Success? && InputWrites(net, b, stream).Success? {
        var x1 := InputWrites(net, a[1..], stream).value;
        var y := InputWrites(net, b, stream).value;
        assert first.value + (x1 + y) == (first.value + x1) + y;
      }
    }
  }

  /** The walk performs exactly the reference writes, in visiting order, and
      fails with the first missing stream along the way. */
  lemma {:induction false} WalkIsVisitOrder(net: Network, l: nat, stream: string, acc: OMap<string, Var>)
    requires Acyclic(net) && l < |net.layers|
    ensures forall j :: 0 <= j < |Visits(net, l)| ==> Visits(net, l)[j] < |net.layers|
    ensures Walk(net, l, stream, acc) ==
      (match InputWrites(net, Visits(net, l), stream)
       case Failure(e) => Failure(e)
       case Success(w) => Success(PutAll(acc, w)))
    decreases l, 1
  {
    VisitsInRange(net, l);
    var rest := VisitsAll(net, net.inConnections[l], l);
    VisitsAllInRange(net, net.inConnections[l], l);
    InputWritesConcat(net, [l], rest, stream);
    var first := Placeholders(net.layers[l], InputsField, stream);
    assert InputWrites(net, [l], stream) == (match first case Failure(e) => Failure(e) case Success(x) => Success(x + [])) by {
      assert [l][1..] == [];
    }
    if first.Success? {
      assert first.value + [] == first.value;
      var acc1 := PutAll(acc, first.value);
      WalkAllIsVisitOrder(net, net.inConnections[l], l, stream, acc1);
      if InputWrites(net, rest, stream).Success? {
        PutAllConcat(acc, first.value, InputWrites(net, rest, stream).value);
      }
    }
  }

  lemma {:induction false} WalkAllIsVisitOrder(net: Network, ls: seq<nat>, bound: nat, stream: string, acc: OMap<string, Var>)
    requires Acyclic(net) && bound <= |net.layers|
    requires forall j :: 0 <= j < |ls| ==> ls[j] < bound
    ensures forall j :: 0 <= j < |VisitsAll(net, ls, bound)| ==> VisitsAll(net, ls, bound)[j] < |net.layers|
    ensures WalkAll(net, ls, bound, stream, acc) ==
      (match InputWrites(net, VisitsAll(net, ls, bound), stream)
       case Failure(e) => Failure(e)
       case Success(w) => Success(PutAll(acc, w)))
    decreases bound, 0, |ls|
  {
    VisitsAllInRange(net, ls, bound);
    if ls != [] {
      var here := Visits(net, ls[0]);
      var later := VisitsAll(net, ls[1..], bound);
      WalkIsVisitOrder(net, ls[0], stream, acc);
      VisitsAllInRange(net, ls[1..], bound);
      InputWritesConcat(net, here, later, stream);
      if InputWrites(net, here, stream).Success? {
        var x := InputWrites(net, here, stream).value;
        WalkAllIsVisitOrder(net, ls[1..], bound, stream, PutAll(acc, x));
        if InputWrites(net, later, stream).Success? {
          PutAllConcat(acc, x, InputWrites(net, later, stream).value);
        }
      }
    }
  }

  lemma WalkValid(net: Network, l: nat, stream: string, acc: OMap<string, Var>)
    requires Acyclic(net) && l < |net.layers| && Valid(acc)
    ensures Walk(net, l, stream, acc).Success? ==> Valid(Walk(net, l, stream, acc).value)
  {
    WalkIsVisitOrder(net, l, stream, acc);
  }

  /** The inputs of a handle: first-write key order and last-write values over
      the walk's writes followed by the owning layer's target writes; the handle
      is built exactly when every placeholder met defines the stream. */
  lemma HandleInputs(name: string, net: Network, l: nat, output: Expr, stream: string,
                     updates: Option<Aggregate>, options: map<string, OptionValue>)
    requires Acyclic(net) && l < |net.layers|
    ensures forall j :: 0 <= j < |Visits(net, l)| ==> Visits(net, l)[j] < |net.layers|
    ensures MakeHandle(name, net, l, output, stream, updates, options).Success?
      <==> InputWrites(net, Visits(net, l), stream).Success? && Resolves(net.layers[l], TargetsField, stream)
    ensures MakeHandle(name, net, l, output, stream, updates, options).Success? ==>
      var all := InputWrites(net, Visits(net, l), stream).value + Placeholders(net.layers[l], TargetsField, stream).value;
      var h := MakeHandle(name, net, l, output, stream, updates, options).value;
      && Keys(h.inputs) == Dedup(Keys(all))
      && ToMap(h.inputs) == LastWins(all)
  {
    WalkIsVisitOrder(net, l, stream, []);
    var iw := InputWrites(net, Visits(net, l), stream);
    var tg := Placeholders(net.layers[l], TargetsField, stream);
    var r := MakeHandle(name, net, l, output, stream, updates, options);
    if iw.Success? && tg.Success? {
      var w := iw.value;
      var t := tg.value;
      assert r.value.inputs == PutAll(PutAll([], w), t);
      HandleInputsFrom(w, t);
    }
  }

  lemma HandleInputsFrom(w: seq<(string, Var)>, t: seq<(string, Var)>)
    ensures Keys(PutAll(PutAll([], w), t)) == Dedup(Keys(w + t))
    ensures ToMap(PutAll(PutAll([], w), t)) == LastWins(w + t)
  {
    PutAllConcat([], w, t);
    FromEmpty(w + t);
  }
}

=== FILE: layers.dfy ===
/** The collaborators the wrapper layer reads from: layers and the network's
    connection graph. Only what the wrappers consult is modelled — a layer's
    name, its parameter stores, its update rules and its input/target
    placeholders — so a layer is a plain record rather than an object. */
module Layers {
  import opened Results
  import opened Symbols
  import opened OrderedMaps

  /** The class of a layer attribute, as far as the wrappers care: an `Inputs`
      placeholder, a `Targets` placeholder, or anything else. */
  datatype FieldKind = InputsField | TargetsField | OtherField

  /** One attribute of a layer object; a placeholder holds one variable per stream. */
  datatype Field = Field(name: string, kind: FieldKind, streams: map<string, Var>)

  datatype Layer = Layer(
    name: string,
    /** `layer.parameters`: parameter name to store, `None` for an unset store. */
    parameters: OMap<string, Option<Var>>,
    /** `layer.abstractions["scenari"]`. */
    scenari: seq<Scenario>,
    /** The attributes of the layer object, in the order its attribute dictionary yields them. */
    fields: seq<Field>)

  /** Layers are numbered; `inConnections[i]` lists the layers feeding layer `i`. */
  datatype Network = Network(layers: seq<Layer>, inConnections: seq<seq<nat>>)

  /** The connection graph is acyclic. Layers are numbered in a topological
      order, so every inbound connection points to a lower number; any acyclic
      graph can be numbered this way. */
  predicate Acyclic(net: Network) {
    && |net.inConnections| == |net.layers|
    && forall i, j :: 0 <= i < |net.inConnections| && 0 <= j < |net.inConnections[i]| ==>
         net.inConnections[i][j] < i
  }

  /** `"%s.%s" % (layer.name, k)`: the dotted names used as keys throughout. */
  function Qualified(layerName: string, member: string): string {
    layerName + "." + member
  }
}

=== FILE: merging.dfy ===
/** What `_compile` builds from its handles (wrappers.py:143-173), stated
    against reference definitions: the concatenation of all handles' writes,
    deduplicated for key order and last-write-wins for values, and the
    concatenation of the carried aggregates. */
module Merging {
  import opened Results
  import opened Symbols
  import opened OrderedMaps
  import opened Layers
  import opened Updates
  import opened Handles
  import opened Functions

  /** Every handle's input writes, in handle order. */
  function AllInputs(hs: seq<Handle>): seq<(string, Var)>
    decreases |hs|
  {
    if hs == [] then [] else AllInputs(hs[..|hs| - 1]) + hs[|hs| - 1].inputs
  }

  /** Every handle's output write. */
  function OutputWrites(hs: seq<Handle>): (ws: seq<(string, Expr)>)
    ensures |ws| == |hs| && forall i :: 0 <= i < |hs| ==> ws[i] == (OutputKey(hs[i]), hs[i].output)
  {
    seq(|hs|, i requires 0 <= i < |hs| => (OutputKey(hs[i]), hs[i].output))
  }

  /** The aggregates the handles carry, in handle order. */
  function AggregatesOf(hs: seq<Handle>): seq<Aggregate>
    decreases |hs|
  {
    if hs == [] then []
    else
      var h := hs[|hs| - 1];
      AggregatesOf(hs[..|hs| - 1]) + (if h.updates.Some? then [h.updates.value] else [])
  }

  function OutputLayersOf(aggs: seq<Aggregate>): seq<Layer>
    decreases |aggs|
  {
    if aggs == [] then [] else OutputLayersOf(aggs[..|aggs| - 1]) + aggs[|aggs| - 1].outputLayers
  }

  function LayersOf(aggs: seq<Aggregate>): seq<Layer>
    decreases |aggs|
  {
    if aggs == [] then [] else LayersOf(aggs[..|aggs| - 1]) + aggs[|aggs| - 1].layers
  }

  /** The cost the chain of `extend` calls builds: the first carried cost,
      then each later one added on the right. */
  function CostOf(aggs: seq<Aggregate>): Cost
    requires aggs != []
    decreases |aggs|
  {
    if |aggs| == 1 then aggs[0].cost
    else CostSum(CostOf(aggs[..|aggs| - 1]), aggs[|aggs| - 1].cost)
  }

  function NamedKeys(ks: seq<string>): seq<ArgKey> {
    seq(|ks|, i requires 0 <= i < |ks| => Named(ks[i]))
  }

  lemma HandlesWellFormedPrefix(hs: seq<Handle>)
    requires HandlesWellFormed(hs) && hs != []
    ensures HandlesWellFormed(hs[..|hs| - 1])
  {
    var init := hs[..|hs| - 1];
    forall i | 0 <= i < |init| ensures init[i].updates.Some? ==> WellFormed(init[i].updates.value) {
      assert init[i] == hs[i];
    }
  }

  /** One step of the merge loop, named component by component. */
  lemma MergeStep(hs: seq<Handle>)
    requires HandlesWellFormed(hs) && hs != []
    ensures HandlesWellFormed(hs[..|hs| - 1])
    ensures var m0 := MergeAll(hs[..|hs| - 1]);
      var h := hs[|hs| - 1];
      var m := MergeAll(hs);
      && m.inputs == PutAll(m0.inputs, h.inputs)
      && m.slots == PutAll(m0.slots, EmptySlots(h.inputs))
      && m.outputs == Put(m0.outputs, OutputKey(h), h.output)
      && (m.updates, m.adoptedFrom) == AdoptOrExtend(m0.updates, m0.adoptedFrom, h, |hs| - 1)
      && m.options == m0.options + h.options
  {
    HandlesWellFormedPrefix(hs);
  }

  /** The handles' options folded with `dict.update`, in handle order. */
  function OptionsOf(hs: seq<Handle>): map<string, OptionValue>
    decreases |hs|
  {
    if hs == [] then map[] else OptionsOf(hs[..|hs| - 1]) + hs[|hs| - 1].options
  }

  lemma {:induction false} MergeOptionsLoop(hs: seq<Handle>)
    requires HandlesWellFormed(hs)
    ensures MergeAll(hs).options == OptionsOf(hs)
    decreases |hs|
  {
    if hs != [] {
      MergeStep(hs);
      MergeOptionsLoop(hs[..|hs| - 1]);
    }
  }

  /** Handle `i` sets option `k` and no later handle does. */
  predicate LastSets(hs: seq<Handle>, k: string, i: int) {
    0 <= i < |hs| && k in hs[i].options && forall j :: i < j < |hs| ==> k !in hs[j].options
  }

  /** `theano_kwargs.update(handle.theano_kwargs)` for every handle: the merged
      options hold exactly the keys some handle sets, each with the value of
      the last handle that sets it. */
  lemma MergeOptions(hs: seq<Handle>)
    requires HandlesWellFormed(hs)
    ensures forall k :: k in MergeAll(hs).options <==> exists i :: 0 <= i < |hs| && k in hs[i].options
    ensures forall k :: k in MergeAll(hs).options ==>
      exists i :: LastSets(hs, k, i) && MergeAll(hs).options[k] == hs[i].options[k]
  {
    MergeOptionsLoop(hs);
    OptionsKeys(hs);
    OptionsValues(hs);
  }

  lemma {:induction false} OptionsKeys(hs: seq<Handle>)
    ensures forall k :: k in OptionsOf(hs) <==> exists i :: 0 <= i < |hs| && k in hs[i].options
    decreases |hs|
  {
    if hs != [] {
      var init := hs[..|hs| - 1];
      OptionsKeys(init);
      assert forall i :: 0 <= i < |init| ==> init[i] == hs[i];
    }
  }

  lemma {:induction false} OptionsValues(hs: seq<Handle>)
    ensures forall k :: k in OptionsOf(hs) ==> exists i :: LastSets(hs, k, i) && OptionsOf(hs)[k] == hs[i].options[k]
    decreases |hs|
  {
    if hs != [] {
      var init := hs[..|hs| - 1];
      var h := hs[|hs| - 1];
      OptionsValues(init);
      forall k | k in OptionsOf(hs) ensures exists i :: LastSets(hs, k, i) && OptionsOf(hs)[k] == hs[i].options[k] {
        if k in h.options {
          assert LastSets(hs, k, |hs| - 1);
        } else {
          var i :| LastSets(init, k, i) && OptionsOf(init)[k] == init[i].options[k];
          LastSetsExtend(hs, k, i);
        }
      }
    }
  }

  lemma LastSetsExtend(hs: seq<Handle>, k: string, i: int)
    requires hs != [] && LastSets(hs[..|hs| - 1], k, i) && k !in hs[|hs| - 1].options
    ensures LastSets(hs, k, i) && hs[i] == hs[..|hs| - 1][i]
  {
    var init := hs[..|hs| - 1];
    forall j | i < j < |hs| ensures k !in hs[j].options {
      if j < |init| {
        assert init[j] == hs[j];
      }
    }
  }

  /** The single merge loop does what separate loops of writes would. */
  lemma MergeIsSeparateLoops(hs: seq<Handle>)
    requires HandlesWellFormed(hs)
    ensures MergeAll(hs).inputs == PutAll([], AllInputs(hs))
    ensures MergeAll(hs).slots == PutAll([], EmptySlots(AllInputs(hs)))
    ensures MergeAll(hs).outputs == PutAll([], OutputWrites(hs))
    ensures (MergeAll(hs).updates, MergeAll(hs).adoptedFrom) == UpdatesLoop(hs)
  {
    MergeInputsLoop(hs);
    MergeSlotsLoop(hs);
    MergeOutputsLoop(hs);
    MergeUpdatesLoop(hs);
  }

  lemma {:induction false} MergeInputsLoop(hs: seq<Handle>)
    requires HandlesWellFormed(hs)
    ensures MergeAll(hs).inputs == PutAll([], AllInputs(hs))
    decreases |hs|
  {
    if hs != [] {
      var init := hs[..|hs| - 1];
      var h := hs[|hs| - 1];
      MergeStep(hs);
      MergeInputsLoop(init);
      PutAllConcat([], AllInputs(init), h.inputs);
    }
  }

  lemma {:induction false} MergeSlotsLoop(hs: seq<Handle>)
    requires HandlesWellFormed(hs)
    ensures MergeAll(hs).slots == PutAll([], EmptySlots(AllInputs(hs)))
    decreases |hs|
  {
    if hs != [] {
      var init := hs[..|hs| - 1];
      var h := hs[|hs| - 1];
      MergeStep(hs);
      MergeSlotsLoop(init);
      assert AllInputs(hs) == AllInputs(init) + h.inputs;
      EmptySlotsConcat(AllInputs(init), h.inputs);
      PutAllConcat([], EmptySlots(AllInputs(init)), EmptySlots(h.inputs));
    }
  }

  lemma EmptySlotsConcat(a: seq<(string, Var)>, b: seq<(string, Var)>)
    ensures EmptySlots(a + b) == EmptySlots(a) + EmptySlots(b)
  {
  }

  /** The merged parts of a freshly compiled function are those of the merge loop. */
  lemma CompiledFromMerge(f: Function, apply: Apply)
    requires Good(f) && !IsCompiled(f)
    ensures var c := CompileFn(f, apply).phase;
      && c.merged.inputs == MergeAll(f.handles).inputs
      && c.merged.outputs == MergeAll(f.handles).outputs
      && c.fctInputs == MergeAll(f.handles).slots
  {
  }

  lemma {:induction false} MergeOutputsLoop(hs: seq<Handle>)
    requires HandlesWellFormed(hs)
    ensures MergeAll(hs).outputs == PutAll([], OutputWrites(hs))
    decreases |hs|
  {
    if hs != [] {
      var init := hs[..|hs| - 1];
      var h := hs[|hs| - 1];
      var ow0 := OutputWrites(init);
      var x := (OutputKey(h), h.output);
      OutputWritesLast(hs);
      assert (ow0 + [x])[..|ow0|] == ow0;
      assert PutAll([], ow0 + [x]) == Put(PutAll([], ow0), x.0, x.1);
      MergeStep(hs);
      MergeOutputsLoop(init);
    }
  }

  lemma OutputWritesLast(hs: seq<Handle>)
    requires hs != []
    ensures OutputWrites(hs) == OutputWrites(hs[..|hs| - 1]) + [(OutputKey(hs[|hs| - 1]), hs[|hs| - 1].output)]
  {
    var init := hs[..|hs| - 1];
    forall i | 0 <= i < |init| ensures OutputWrites(hs)[i] == OutputWrites(init)[i] {
      assert hs[i] == init[i];
    }
  }

  lemma {:induction false} MergeUpdatesLoop(hs: seq<Handle>)
    requires HandlesWellFormed(hs)
    ensures (MergeAll(hs).updates, MergeAll(hs).adoptedFrom) == UpdatesLoop(hs)
    decreases |hs|
  {
    if hs != [] {
      MergeStep(hs);
      MergeUpdatesLoop(hs[..|hs| - 1]);
    }
  }

  lemma {:induction false} DedupNamed(ks: seq<string>)
    ensures Dedup(NamedKeys(ks)) == NamedKeys(Dedup(ks))
    decreases |ks|
  {
    if ks != [] {
      var init := ks[..|ks| - 1];
      var x := ks[|ks| - 1];
      DedupNamed(init);
      assert NamedKeys(ks)[..|ks| - 1] == NamedKeys(init);
      DedupMembers(init);
      DedupMembers(NamedKeys(init));
      forall i | 0 <= i < |init| ensures NamedKeys(init)[i] == Named(x) <==> init[i] == x {
      }
      assert Named(x) in NamedKeys(init) <==> x in init;
      assert NamedKeys(Dedup(init) + [x]) == NamedKeys(Dedup(init)) + [Named(x)];
    }
  }

  lemma {:induction false} LastWinsEmptySlots(es: seq<(string, Var)>)
    ensures forall k :: k in LastWins(EmptySlots(es)) ==> LastWins(EmptySlots(es))[k] == None
    decreases |es|
  {
    if es != [] {
      var init := es[..|es| - 1];
      assert EmptySlots(es)[..|es| - 1] == EmptySlots(init);
      LastWinsEmptySlots(init);
    }
  }

  /** Inputs after compile: every input name of every handle, at the position
      of its first appearance, bound to the last handle's variable for it; and
      `fct_inputs` holds exactly the same names, in the same order, all `None`. */
  lemma CompiledInputs(f: Function, apply: Apply)
    requires Good(f) && !IsCompiled(f)
    ensures var c := CompileFn(f, apply).phase;
      && Keys(c.merged.inputs) == Dedup(Keys(AllInputs(f.handles)))
      && ToMap(c.merged.inputs) == LastWins(AllInputs(f.handles))
      && Keys(c.fctInputs) == NamedKeys(Keys(c.merged.inputs))
      && forall i :: 0 <= i < |c.fctInputs| ==> c.fctInputs[i].1 == None
  {
    var all := AllInputs(f.handles);
    var c := CompileFn(f, apply).phase;
    assert c.merged.inputs == PutAll([], all) && c.fctInputs == PutAll([], EmptySlots(all)) by {
      CompiledFromMerge(f, apply);
      MergeInputsLoop(f.handles);
      MergeSlotsLoop(f.handles);
    }
    InputsFromWrites(all);
  }

  lemma InputsFromWrites(all: seq<(string, Var)>)
    ensures var inputs := PutAll([], all);
      var slots := PutAll([], EmptySlots(all));
      && Keys(inputs) == Dedup(Keys(all))
      && ToMap(inputs) == LastWins(all)
      && Keys(slots) == NamedKeys(Keys(inputs))
      && forall i :: 0 <= i < |slots| ==> slots[i].1 == None
  {
    SlotsAreEmpty(all);
    FromEmpty(all);
    FromEmpty(EmptySlots(all));
    assert Keys(EmptySlots(all)) == NamedKeys(Keys(all));
    DedupNamed(Keys(all));
  }

  lemma SlotsAreEmpty(all: seq<(string, Var)>)
    ensures var slots := PutAll([], EmptySlots(all));
      forall i :: 0 <= i < |slots| ==> slots[i].1 == None
  {
    var slots := PutAll([], EmptySlots(all));
    FromEmpty(EmptySlots(all));
    LastWinsEmptySlots(all);
    forall i | 0 <= i < |slots| ensures slots[i].1 == None {
      GetAt(slots, i);
    }
  }

  /** Outputs after compile: one key `"<layer>.<handle name>"` per handle, in
      handle order with repeats dropped, holding the last such handle's output. */
  lemma CompiledOutputs(f: Function, apply: Apply)
    requires Good(f) && !IsCompiled(f)
    ensures var c := CompileFn(f, apply).phase;
      && Keys(c.merged.outputs) == Dedup(Keys(OutputWrites(f.handles)))
      && ToMap(c.merged.outputs) == LastWins(OutputWrites(f.handles))
  {
    CompiledFromMerge(f, apply);
    MergeOutputsLoop(f.handles);
    FromEmpty(OutputWrites(f.handles));
  }

  /** The aggregate loop concatenates the carried aggregates' layer lists in
      handle order, and there is an aggregate iff some handle carries one. */
  lemma {:induction false} UpdatesLoopConcatenates(hs: seq<Handle>)
    ensures var (u, _) := UpdatesLoop(hs);
      && (u.None? <==> AggregatesOf(hs) == [])
      && (u.Some? ==>
           && u.value.outputLayers == OutputLayersOf(AggregatesOf(hs))
           && u.value.layers == LayersOf(AggregatesOf(hs)))
    decreases |hs|
  {
    if hs != [] {
      var init := hs[..|hs| - 1];
      var h := hs[|hs| - 1];
      UpdatesLoopConcatenates(init);
      var aggs := AggregatesOf(hs);
      var (u0, a0) := UpdatesLoop(init);
      assert UpdatesLoop(hs) == AdoptOrExtend(u0, a0, h, |hs| - 1);
      if h.updates.Some? {
        assert aggs == AggregatesOf(init) + [h.updates.value];
        ChainAppend(AggregatesOf(init), h.updates.value);
      } else {
        assert aggs == AggregatesOf(init);
      }
    }
  }

  /** Appending one aggregate to the chain appends its layer lists. */
  lemma ChainAppend(aggs: seq<Aggregate>, x: Aggregate)
    ensures OutputLayersOf(aggs + [x]) == OutputLayersOf(aggs) + x.outputLayers
    ensures LayersOf(aggs + [x]) == LayersOf(aggs) + x.layers
    ensures aggs == [] ==> OutputLayersOf(aggs + [x]) == x.outputLayers && LayersOf(aggs + [x]) == x.layers
  {
    assert (aggs + [x])[..|aggs|] == aggs;
  }

  /** The aggregate loop sums the carried costs in handle order. */
  lemma {:induction false} UpdatesLoopCost(hs: seq<Handle>)
    ensures var (u, _) := UpdatesLoop(hs);
      u.Some? ==> AggregatesOf(hs) != [] && u.value.cost == CostOf(AggregatesOf(hs))
    decreases |hs|
  {
    if hs != [] {
      var init := hs[..|hs| - 1];
      var h := hs[|hs| - 1];
      UpdatesLoopCost(init);
      UpdatesLoopConcatenates(init);
      var aggs := AggregatesOf(hs);
      if h.updates.Some? {
        assert aggs == AggregatesOf(init) + [h.updates.value];
        assert aggs[..|aggs| - 1] == AggregatesOf(init);
      } else {
        assert aggs == AggregatesOf(init);
      }
    }
  }

  /** The compiled function's aggregate: present iff some handle carries one;
      it is the first carried aggregate extended by the later ones, with its
      deferred accumulation performed. */
  lemma CompiledAggregate(f: Function, apply: Apply)
    requires Good(f) && !IsCompiled(f)
    ensures var c := CompileFn(f, apply).phase;
      var (u, _) := UpdatesLoop(f.handles);
      && (c.merged.updates.None? <==> AggregatesOf(f.handles) == [])
      && (c.merged.updates.Some? ==>
           && u.Some? && WellFormed(u.value)
           && c.merged.updates == Some(Updates.Compile(u.value, apply))
           && c.merged.updates.value.outputLayers == OutputLayersOf(AggregatesOf(f.handles))
           && c.merged.updates.value.layers == LayersOf(AggregatesOf(f.handles))
           && c.merged.updates.value.cost == CostOf(AggregatesOf(f.handles))
           && c.main.updates == c.merged.updates.value.updates)
      && (c.merged.updates.None? ==> c.main.updates == [])
  {
    MergeIsSeparateLoops(f.handles);
    UpdatesLoopConcatenates(f.handles);
    UpdatesLoopCost(f.handles);
  }

  /** `hasUpdates()` decides the aggregate: the compiled function has one iff
      some handle has updates. */
  lemma CompiledHasUpdates(f: Function, apply: Apply)
    requires Good(f) && !IsCompiled(f)
    ensures CompileFn(f, apply).phase.merged.updates.Some?
      <==> exists i :: 0 <= i < |f.handles| && HasUpdates(f.handles[i])
  {
    MergeIsSeparateLoops(f.handles);
    MergeAdoptsFirst(f.handles);
  }
}

=== FILE: ordered_maps.dfy ===
/** Python's `OrderedDict` as a sequence of key/value pairs in insertion order.
    Assigning to an existing key replaces its value in place (the key keeps its
    first position); assigning to a new key appends it. A well-formed map has
    pairwise distinct keys. The map-level meaning of an ordered map is `ToMap`,
    and the meaning of its key order is `Dedup` of the keys in write order. */
module OrderedMaps {
  import opened Results

  type OMap<K, V> = seq<(K, V)>

  predicate Distinct<T(==)>(s: seq<T>) {
    forall i, j :: 0 <= i < j < |s| ==> s[i] != s[j]
  }

  function Keys<K, V>(m: OMap<K, V>): (ks: seq<K>)
    ensures |ks| == |m|
    ensures forall i :: 0 <= i < |m| ==> ks[i] == m[i].0
  {
    seq(|m|, i requires 0 <= i < |m| => m[i].0)
  }

  function Values<K, V>(m: OMap<K, V>): (vs: seq<V>)
    ensures |vs| == |m|
    ensures forall i :: 0 <= i < |m| ==> vs[i] == m[i].1
  {
    seq(|m|, i requires 0 <= i < |m| => m[i].1)
  }

  predicate Valid<K(==, !new), V>(m: OMap<K, V>) {
    Distinct(Keys(m))
  }

  /** Position of the first occurrence of `x` in `s`. */
  function IndexOf<T(==)>(s: seq<T>, x: T): (i: nat)
    requires x in s
    ensures i < |s| && s[i] == x && x !in s[..i]
  {
    if s[0] == x then 0 else 1 + IndexOf(s[1..], x)
  }

  /** `m.get(k)`. */
  function Get<K(==, !new), V>(m: OMap<K, V>, k: K): (r: Option<V>)
    ensures r.Some? <==> k in Keys(m)
  {
    if k in Keys(m) then
      var i := IndexOf(Keys(m), k);
      Some(m[i].1)
    else None
  }

  /** `m[k] = v` on an `OrderedDict`. */
  function Put<K(==, !new), V>(m: OMap<K, V>, k: K, v: V): (r: OMap<K, V>)
    ensures Keys(r) == if k in Keys(m) then Keys(m) else Keys(m) + [k]
    ensures Valid(m) ==> Valid(r)
  {
    if k in Keys(m) then
      var i := IndexOf(Keys(m), k);
      var r := m[i := (k, v)];
      assert Keys(r) == Keys(m);
      r
    else
      var r := m + [(k, v)];
      assert Keys(r) == Keys(m) + [k];
      r
  }

  lemma {:induction false} IndexOfPrefix<T>(a: seq<T>, b: seq<T>, x: T)
    requires x in a
    ensures x in a + b && IndexOf(a + b, x) == IndexOf(a, x)
  {
    if a[0] != x {
      assert (a + b)[1..] == a[1..] + b;
      IndexOfPrefix(a[1..], b, x);
    }
  }

  /** Writes every pair of `es` into `m`, in order (a loop of `m[k] = v`). */
  function PutAll<K(==, !new), V>(m: OMap<K, V>, es: seq<(K, V)>): (r: OMap<K, V>)
    ensures Valid(m) ==> Valid(r)
    ensures forall k :: k in Keys(m) ==> k in Keys(r)
    ensures forall i :: 0 <= i < |es| ==> es[i].0 in Keys(r)
    decreases |es|
  {
    if es == [] then m
    else
      var init := es[..|es| - 1];
      var last := es[|es| - 1];
      var p := PutAll(m, init);
      var r := Put(p, last.0, last.1);
      assert forall k :: k in Keys(p) ==> k in Keys(r);
      assert forall i :: 0 <= i < |init| ==> init[i] == es[i];
      r
  }

  /** The plain map an ordered map denotes. */
  function ToMap<K(==, !new), V>(m: OMap<K, V>): (r: map<K, V>)
    ensures forall k :: k in r <==> k in Keys(m)
  {
    map k | k in Keys(m) :: Get(m, k).value
  }

  /** Reference semantics of a sequence of writes on a plain map: later writes win. */
  function LastWins<K(==, !new), V>(es: seq<(K, V)>): map<K, V>
    decreases |es|
  {
    if es == [] then map[]
    else
      var last := es[|es| - 1];
      LastWins(es[..|es| - 1])[last.0 := last.1]
  }

  /** The first occurrences of the elements of `s`, in order. */
  function Dedup<T(==)>(s: seq<T>): seq<T>
    decreases |s|
  {
    if s == [] then []
    else
      var d := Dedup(s[..|s| - 1]);
      if s[|s| - 1] in d then d else d + [s[|s| - 1]]
  }

  /** The pairs `(ks[i], vs[i])` for as long as both sequences last (Python's `zip`). */
  function Zip<K, V>(ks: seq<K>, vs: seq<V>): (r: seq<(K, V)>)
    ensures |r| == if |ks| <= |vs| then |ks| else |vs|
    ensures forall i :: 0 <= i < |r| ==> r[i] == (ks[i], vs[i])
  {
    seq(if |ks| <= |vs| then |ks| else |vs|, i requires 0 <= i < |ks| && i < |vs| => (ks[i], vs[i]))
  }

  // ---------------------------------------------------------------------------
  // Lemmas

  /** `m[k] = v` then reads back `v` at `k` and leaves every other key alone. */
  lemma PutGet<K(!new), V>(m: OMap<K, V>, k: K, v: V)
    ensures Get(Put(m, k, v), k) == Some(v)
    ensures forall k' :: k' != k ==> Get(Put(m, k, v), k') == Get(m, k')
  {
    var r := Put(m, k, v);
    if k !in Keys(m) {
      forall k' | k' in Keys(m) ensures IndexOf(Keys(r), k') == IndexOf(Keys(m), k') {
        IndexOfPrefix(Keys(m), [k], k');
      }
    }
  }

  lemma PutMeaning<K(!new), V>(m: OMap<K, V>, k: K, v: V)
    ensures ToMap(Put(m, k, v)) == ToMap(m)[k := v]
  {
    var r := Put(m, k, v);
    PutGet(m, k, v);
    forall k' | k' in ToMap(r)
      ensures ToMap(r)[k'] == ToMap(m)[k := v][k']
    {
      if k' != k {
        assert Get(r, k') == Get(m, k');
      }
    }
  }

  lemma DedupLast<T>(s: seq<T>, x: T)
    ensures Dedup(s + [x]) == if x in Dedup(s) then Dedup(s) else Dedup(s) + [x]
  {
    assert (s + [x])[..|s + [x]| - 1] == s;
  }

  lemma {:induction false} DedupMembers<T>(s: seq<T>)
    ensures forall x :: x in Dedup(s) <==> x in s
    ensures Distinct(Dedup(s))
    decreases |s|
  {
    if s != [] {
      var init := s[..|s| - 1];
      DedupMembers(init);
      assert s == init + [s[|s| - 1]];
    }
  }

  lemma {:induction false} DedupOfDistinct<T>(s: seq<T>)
    requires Distinct(s)
    ensures Dedup(s) == s
    decreases |s|
  {
    if s != [] {
      var init := s[..|s| - 1];
      DedupOfDistinct(init);
      DedupMembers(init);
      assert s == init + [s[|s| - 1]];
    }
  }

  /** Key order after a sequence of writes: the keys already present, then every
      new key at the position of its first write. */
  lemma {:induction false} PutAllKeys<K(!new), V>(m: OMap<K, V>, es: seq<(K, V)>)
    requires Valid(m)
    ensures Keys(PutAll(m, es)) == Dedup(Keys(m) + Keys(es))
    decreases |es|
  {
    if es == [] {
      assert Keys(m) + Keys(es) == Keys(m);
      DedupOfDistinct(Keys(m));
    } else {
      var init := es[..|es| - 1];
      var last := es[|es| - 1];
      var p := PutAll(m, init);
      var prefix := Keys(m) + Keys(init);
      assert Keys(m) + Keys(es) == prefix + [last.0] by {
        assert Keys(es) == Keys(init) + [last.0];
      }
      assert Keys(p) == Dedup(prefix) by {
        PutAllKeys(m, init);
      }
      assert PutAll(m, es) == Put(p, last.0, last.1);
      assert last.0 in Keys(p) <==> last.0 in Dedup(prefix);
      DedupLast(prefix, last.0);
    }
  }

  /** Values after a sequence of writes: the last write to a key wins. */
  lemma UpdateUnion<K, V>(a: map<K, V>, b: map<K, V>, k: K, v: V)
    ensures (a + b)[k := v] == a + b[k := v]
  {
  }

  lemma {:induction false} PutAllMeaning<K(!new), V>(m: OMap<K, V>, es: seq<(K, V)>)
    ensures ToMap(PutAll(m, es)) == ToMap(m) + LastWins(es)
    decreases |es|
  {
    if es != [] {
      var init := es[..|es| - 1];
      var last := es[|es| - 1];
      var p := PutAll(m, init);
      assert PutAll(m, es) == Put(p, last.0, last.1);
      assert LastWins(es) == LastWins(init)[last.0 := last.1];
      calc {
        ToMap(Put(p, last.0, last.1));
        { PutMeaning(p, last.0, last.1); }
        ToMap(p)[last.0 := last.1];
        { PutAllMeaning(m, init); }
        (ToMap(m) + LastWins(init))[last.0 := last.1];
        { UpdateUnion(ToMap(m), LastWins(init), last.0, last.1); }
        ToMap(m) + LastWins(init)[last.0 := last.1];
      }
    }
  }

  lemma {:induction false} PutAllConcat<K(!new), V>(m: OMap<K, V>, a: seq<(K, V)>, b: seq<(K, V)>)
    ensures PutAll(m, a + b) == PutAll(PutAll(m, a), b)
    decreases |b|
  {
    if b == [] {
      assert a + b == a;
    } else {
      assert (a + b)[..|a + b| - 1] == a + b[..|b| - 1];
      PutAllConcat(m, a, b[..|b| - 1]);
    }
  }

  lemma {:induction false} LastWinsKeys<K(!new), V>(es: seq<(K, V)>)
    ensures forall k :: k in LastWins(es) <==> k in Keys(es)
    decreases |es|
  {
    if es != [] {
      LastWinsKeys(es[..|es| - 1]);
      assert Keys(es) == Keys(es[..|es| - 1]) + [es[|es| - 1].0];
    }
  }

  lemma GetToMap<K(!new), V>(m: OMap<K, V>, k: K)
    requires k in Keys(m)
    ensures Get(m, k) == Some(ToMap(m)[k])
  {
  }

  /** In a well-formed map, looking up the key at position `i` yields the value there. */
  lemma GetAt<K(!new), V>(m: OMap<K, V>, i: nat)
    requires Valid(m) && i < |m|
    ensures Get(m, m[i].0) == Some(m[i].1)
  {
  }

  /** With distinct keys every write survives in the last-wins map. */
  lemma {:induction false} LastWinsDistinct<K(!new), V>(es: seq<(K, V)>)
    requires Distinct(Keys(es))
    ensures forall i :: 0 <= i < |es| ==> es[i].0 in LastWins(es) && LastWins(es)[es[i].0] == es[i].1
    decreases |es|
  {
    if es != [] {
      var init := es[..|es| - 1];
      assert Keys(init) == Keys(es)[..|es| - 1];
      LastWinsDistinct(init);
      forall i | 0 <= i < |es| - 1
        ensures es[i].0 in LastWins(es) && LastWins(es)[es[i].0] == es[i].1
      {
        assert Keys(es)[i] != Keys(es)[|es| - 1];
        assert init[i] == es[i];
      }
    }
  }

  /** Deduplicating never moves the elements of an already distinct prefix. */
  lemma {:induction false} DedupPrefix<T>(a: seq<T>, b: seq<T>)
    requires Distinct(a)
    ensures |Dedup(a + b)| >= |a| && Dedup(a + b)[..|a|] == a
    decreases |b|
  {
    if b == [] {
      assert a + b == a;
      DedupOfDistinct(a);
    } else {
      var init := b[..|b| - 1];
      DedupPrefix(a, init);
      assert a + b == (a + init) + [b[|b| - 1]];
      DedupLast(a + init, b[|b| - 1]);
    }
  }

  function Elements<T>(s: seq<T>): set<T> {
    set x | x in s
  }

  lemma {:induction false} DistinctCard<T>(s: seq<T>)
    requires Distinct(s)
    ensures |Elements(s)| == |s|
    decreases |s|
  {
    if s != [] {
      var init := s[..|s| - 1];
      DistinctCard(init);
      assert Elements(s) == Elements(init) + {s[|s| - 1]};
      assert s[|s| - 1] !in Elements(init);
    }
  }

  /** Writing a sequence of pairs into an empty map: first-write key order,
      last-write values. */
  lemma FromEmpty<K(!new), V>(es: seq<(K, V)>)
    ensures Keys(PutAll([], es)) == Dedup(Keys(es))
    ensures ToMap(PutAll([], es)) == LastWins(es)
  {
    PutAllKeys([], es);
    PutAllMeaning([], es);
    assert Keys<K, V>([]) + Keys(es) == Keys(es);
    assert ToMap<K, V>([]) + LastWins(es) == LastWins(es);
  }

  /** Counting argument behind the check at wrappers.py:197: the union of the
      declared and supplied keys is as large as the supplied keys alone exactly
      when it adds no declared key. */
  lemma {:induction false} CoverIff<T>(declared: seq<T>, supplied: seq<T>)
    requires Distinct(declared) && Distinct(supplied)
    ensures |Dedup(declared + supplied)| == |supplied| <==> forall k :: k in declared ==> k in supplied
  {
    var u := Dedup(declared + supplied);
    var all := Elements(u);
    var given := Elements(supplied);
    assert |u| == |all| && all == Elements(declared) + given by {
      DedupMembers(declared + supplied);
      DistinctCard(u);
    }
    assert |supplied| == |given| by {
      DistinctCard(supplied);
    }
    if forall k :: k in declared ==> k in supplied {
      assert all == given;
    } else {
      var k :| k in declared && k !in supplied;
      assert k in all - given;
      assert all - given >= {k};
      assert all == given + (all - given) && given * (all - given) == {};
      assert |all - given| >= 1;
    }
  }

  /** Position `i` holds the last write to its key. */
  predicate LastWrite<K(==), V>(es: seq<(K, V)>, i: int) {
    0 <= i < |es| && forall j :: i < j < |es| ==> es[j].0 != es[i].0
  }

  /** The value `LastWins` keeps for a key is the one its last write carries. */
  lemma {:induction false} LastWinsLast<K(!new), V>(es: seq<(K, V)>)
    ensures forall i | LastWrite(es, i) :: es[i].0 in LastWins(es) && LastWins(es)[es[i].0] == es[i].1
    decreases |es|
  {
    if es != [] {
      var init := es[..|es| - 1];
      var last := es[|es| - 1];
      LastWinsLast(init);
      forall i | LastWrite(es, i) ensures es[i].0 in LastWins(es) && LastWins(es)[es[i].0] == es[i].1 {
        if i < |es| - 1 {
          assert es[i] == init[i];
          assert LastWrite(init, i) by {
            forall j | i < j < |init| ensures init[j].0 != init[i].0 {
              assert init[j] == es[j];
            }
          }
          assert es[|es| - 1].0 != es[i].0;
        }
      }
    }
  }

  /** Every key written has a last write. */
  lemma {:induction false} LastWriteExists<K(!new), V>(es: seq<(K, V)>, k: K)
    requires k in Keys(es)
    ensures exists i :: LastWrite(es, i) && es[i].0 == k
    decreases |es|
  {
    var init := es[..|es| - 1];
    if es[|es| - 1].0 == k {
      assert LastWrite(es, |es| - 1);
    } else {
      var j :| 0 <= j < |es| && es[j].0 == k;
      assert j < |init| && init[j].0 == k;
      LastWriteExists(init, k);
      var i :| LastWrite(init, i) && init[i].0 == k;
      assert es[i] == init[i];
      assert LastWrite(es, i) by {
        forall j | i < j < |es| ensures es[j].0 != es[i].0 {
          if j < |init| {
            assert es[j] == init[j];
          }
        }
      }
    }
  }
}

=== FILE: results.dfy ===
/** Failure-compatible results used throughout the model: an optional value
    (Python's `None` or a value) and a result that is either a value or the
    exception the Python code would raise. */
module Results {

  datatype Option<+T> = None | Some(value: T)

  datatype Result<+T, +E> = Success(value: T) | Failure(error: E) {

    predicate IsFailure() {
      Failure?
    }

    function PropagateFailure<U>(): Result<U, E>
      requires Failure?
    {
      Failure(error)
    }

    function Extract(): T
      requires Success?
    {
      value
    }
  }
}

=== FILE: symbols.dfy ===
/** The opaque vocabulary of the symbolic backend. Variables, expressions,
    run-time values and compilation options are identities only: the model
    never looks inside them, exactly as the wrapper layer never does. */
module Symbols {

  /** A backend symbolic variable (an input placeholder or a parameter store). */
  datatype Var = Var(id: nat)

  /** A backend symbolic expression (an output, an update or a gradient). */
  datatype Expr = Expr(id: nat)

  /** A concrete value passed to or returned by a compiled backend function. */
  datatype Value = Value(id: nat)

  /** The value of one keyword option forwarded to the backend compiler. */
  datatype OptionValue = OptionValue(id: nat)

  /** A symbolic cost. `extend` adds costs with the backend's `+`, which is kept
      as a syntax node so that the order of the summands stays visible. */
  datatype Cost = CostTerm(id: nat) | CostSum(left: Cost, right: Cost)

  /** An update rule ("scenario") attached to a layer; only its identity matters. */
  datatype Scenario = Scenario(id: nat)

  /** What one scenario `apply` returns: the `"update"` and `"gradient"` entries. */
  datatype ScenarioResult = ScenarioResult(update: Expr, gradient: Expr)

  /** A key accepted by `run`: a declared input name or a variable object. */
  datatype ArgKey = Named(name: string) | ByVar(v: Var)

  /** Why a `TypeError` was raised. */
  datatype TypeErrorReason =
    | AddedCompiledFunction                          // wrappers.py:99
    | AddedNonFunction                               // wrappers.py:103
    | ArgumentCount(expected: seq<ArgKey>, provided: nat)  // wrappers.py:197-199
    | NoUpdatesForGradients                          // wrappers.py:216
    | NoUpdates                                      // wrappers.py:232

  /** The exceptions the modelled code can raise. */
  datatype Error =
    | TypeError(reason: TypeErrorReason)
      /** `v[stream]` on an input or target placeholder that has no variable for the stream. */
    | MissingStream(layer: string, field: string, stream: string)
      /** `fres.next()` after the backend returned fewer values than were zipped. */
    | StopIteration
}

=== FILE: updates.dfy ===
/** The `Updates` aggregate (wrappers.py:9-50): the layers whose parameters are
    trained, the cost, and three ordered maps from parameter store to update
    expression, gradient expression and display name. What a scenario's
    `apply` computes is a backend matter and is a parameter of the model. */
module Updates {
  import opened Results
  import opened Symbols
  import opened OrderedMaps
  import opened Layers

  datatype Aggregate = Aggregate(
    outputLayers: seq<Layer>,
    layers: seq<Layer>,
    cost: Cost,
    updates: OMap<Var, Expr>,
    gradients: OMap<Var, Expr>,
    paramNames: OMap<Var, string>)

  /** `sc.apply(layer, parameterName, cost)`, kept uninterpreted. */
  type Apply = (Scenario, Layer, string, Cost) -> ScenarioResult

  /** The three maps have the same keys in the same order, without repeats. */
  predicate Aligned(a: Aggregate) {
    && Valid(a.updates)
    && Keys(a.gradients) == Keys(a.updates)
    && Keys(a.paramNames) == Keys(a.updates)
  }

  /** The invariant every aggregate the code can build satisfies. */
  predicate WellFormed(a: Aggregate) {
    |a.outputLayers| > 0 && Aligned(a)
  }

  /** `Updates(output_layer, layers, cost)`. */
  function New(outputLayer: Layer, layers: seq<Layer>, cost: Cost): (a: Aggregate)
    ensures WellFormed(a)
    ensures a.outputLayers == [outputLayer] && a.layers == layers && a.cost == cost
    ensures Keys(a.updates) == []
  {
    Aggregate([outputLayer], layers, cost, [], [], [])
  }

  /** `a.extend(other)`; `None` (the only falsy value an aggregate slot holds) is a no-op. */
  function Extend(a: Aggregate, other: Option<Aggregate>): (r: Aggregate)
    ensures other.None? ==> r == a
    ensures other.Some? ==>
      && r.outputLayers == a.outputLayers + other.value.outputLayers
      && r.layers == a.layers + other.value.layers
      && r.cost == CostSum(a.cost, other.value.cost)
    ensures (r.updates, r.gradients, r.paramNames) == (a.updates, a.gradients, a.paramNames)
    ensures WellFormed(a) ==> WellFormed(r)
  {
    match other
    case None => a
    case Some(o) =>
      a.(outputLayers := a.outputLayers + o.outputLayers,
         layers := a.layers + o.layers,
         cost := CostSum(a.cost, o.cost))
  }

  // ---------------------------------------------------------------------------
  // The scenario applications `compile` performs, in order.

  /** One `sc.apply(owner, key, cost)` and the three writes it causes. */
  datatype Step = Step(param: Var, owner: Layer, key: string, scenario: Scenario, result: ScenarioResult)

  function StepName(s: Step): string {
    Qualified(s.owner.name, s.key)
  }

  function Params(steps: seq<Step>): (ps: seq<Var>)
    ensures |ps| == |steps| && forall i :: 0 <= i < |steps| ==> ps[i] == steps[i].param
  {
    seq(|steps|, i requires 0 <= i < |steps| => steps[i].param)
  }

  /** The step `sc` takes on parameter `key` (store `v`) of `owner`. */
  function MakeStep(sc: Scenario, owner: Layer, key: string, v: Var, cost: Cost, apply: Apply): Step {
    Step(v, owner, key, sc, apply(sc, owner, key, cost))
  }

  /** `for k, v in owner.parameters.iteritems(): if v: ...` with one fixed scenario
      (the inner loop of wrappers.py:30-35). */
  function ParamSteps(sc: Scenario, owner: Layer, params: OMap<string, Option<Var>>, cost: Cost, apply: Apply): seq<Step>
    decreases |params|
  {
    if params == [] then []
    else
      var (k, v) := params[0];
      (if v.Some? then [MakeStep(sc, owner, k, v.value, cost, apply)] else [])
      + ParamSteps(sc, owner, params[1..], cost, apply)
  }

  /** `for sc in scenari: for k, v in o.parameters ...` (wrappers.py:29-35). */
  function ScenarioSteps(scenari: seq<Scenario>, o: Layer, cost: Cost, apply: Apply): seq<Step>
    decreases |scenari|
  {
    if scenari == [] then []
    else ParamSteps(scenari[0], o, o.parameters, cost, apply) + ScenarioSteps(scenari[1..], o, cost, apply)
  }

  /** The first loop, over every output layer (wrappers.py:28-35). */
  function OutputSteps(outputs: seq<Layer>, cost: Cost, apply: Apply): seq<Step>
    decreases |outputs|
  {
    if outputs == [] then []
    else ScenarioSteps(outputs[0].scenari, outputs[0], cost, apply) + OutputSteps(outputs[1..], cost, apply)
  }

  /** Every scenario of `scenari`, in order, on one parameter. */
  function ApplyAll(scenari: seq<Scenario>, owner: Layer, key: string, v: Var, cost: Cost, apply: Apply): seq<Step>
    decreases |scenari|
  {
    if scenari == [] then []
    else [MakeStep(scenari[0], owner, key, v, cost, apply)] + ApplyAll(scenari[1..], owner, key, v, cost, apply)
  }

  /** For each set parameter of an upstream layer: the scenari of `last` (the
      output layer the first loop ended on), then the layer's own scenari
      (wrappers.py:38-50). */
  function UpstreamParamSteps(owner: Layer, params: OMap<string, Option<Var>>, last: Layer, cost: Cost, apply: Apply): seq<Step>
    decreases |params|
  {
    if params == [] then []
    else
      var (k, v) := params[0];
      (if v.Some? then ApplyAll(last.scenari, owner, k, v.value, cost, apply) + ApplyAll(owner.scenari, owner, k, v.value, cost, apply)
       else [])
      + UpstreamParamSteps(owner, params[1..], last, cost, apply)
  }

  /** The second loop, over every upstream layer (wrappers.py:37-50). */
  function UpstreamSteps(layers: seq<Layer>, last: Layer, cost: Cost, apply: Apply): seq<Step>
    decreases |layers|
  {
    if layers == [] then []
    else UpstreamParamSteps(layers[0], layers[0].parameters, last, cost, apply) + UpstreamSteps(layers[1..], last, cost, apply)
  }

  function LastOutput(a: Aggregate): Layer
    requires |a.outputLayers| > 0
  {
    a.outputLayers[|a.outputLayers| - 1]
  }

  /** All scenario applications of `compile`, in execution order. The second
      loop reads the loop variable left over from the first, so only the last
      output layer's scenari reach the upstream layers. */
  function Steps(a: Aggregate, apply: Apply): seq<Step>
    requires |a.outputLayers| > 0
  {
    OutputSteps(a.outputLayers, a.cost, apply) + UpstreamSteps(a.layers, LastOutput(a), a.cost, apply)
  }

  // ---------------------------------------------------------------------------
  // compile

  /** The three assignments of one step. */
  function Record(a: Aggregate, s: Step): (r: Aggregate)
    ensures Aligned(a) ==> Aligned(r)
  {
    a.(updates := Put(a.updates, s.param, s.result.update),
       gradients := Put(a.gradients, s.param, s.result.gradient),
       paramNames := Put(a.paramNames, s.param, StepName(s)))
  }

  function RecordAll(a: Aggregate, steps: seq<Step>): (r: Aggregate)
    ensures Aligned(a) ==> Aligned(r)
    ensures (r.outputLayers, r.layers, r.cost) == (a.outputLayers, a.layers, a.cost)
    decreases |steps|
  {
    if steps == [] then a
    else Record(RecordAll(a, steps[..|steps| - 1]), steps[|steps| - 1])
  }

  /** `Updates.compile()`: performs every step, writing into the aggregate's
      existing maps. */
  function Compile(a: Aggregate, apply: Apply): (r: Aggregate)
    requires |a.outputLayers| > 0
    ensures WellFormed(a) ==> WellFormed(r)
    ensures (r.outputLayers, r.layers, r.cost) == (a.outputLayers, a.layers, a.cost)
  {
    RecordAll(a, Steps(a, apply))
  }

  // ---------------------------------------------------------------------------
  // What compile produces

  function UpdateWrites(steps: seq<Step>): seq<(Var, Expr)> {
    seq(|steps|, i requires 0 <= i < |steps| => (steps[i].param, steps[i].result.update))
  }

  function GradientWrites(steps: seq<Step>): seq<(Var, Expr)> {
    seq(|steps|, i requires 0 <= i < |steps| => (steps[i].param, steps[i].result.gradient))
  }

  function NameWrites(steps: seq<Step>): seq<(Var, string)> {
    seq(|steps|, i requires 0 <= i < |steps| => (steps[i].param, StepName(steps[i])))
  }

  lemma WritesKeys(steps: seq<Step>)
    ensures Keys(UpdateWrites(steps)) == Params(steps)
    ensures Keys(GradientWrites(steps)) == Params(steps)
    ensures Keys(NameWrites(steps)) == Params(steps)
  {
  }

  /** Recording the steps one by one is the same as three independent loops of writes. */
  lemma RecordAllSplits(a: Aggregate, steps: seq<Step>)
    ensures RecordAll(a, steps).updates == PutAll(a.updates, UpdateWrites(steps))
    ensures RecordAll(a, steps).gradients == PutAll(a.gradients, GradientWrites(steps))
    ensures RecordAll(a, steps).paramNames == PutAll(a.paramNames, NameWrites(steps))
  {
    RecordAllUpdates(a, steps);
    RecordAllGradients(a, steps);
    RecordAllNames(a, steps);
  }

  lemma {:induction false} RecordAllUpdates(a: Aggregate, steps: seq<Step>)
    ensures RecordAll(a, steps).updates == PutAll(a.updates, UpdateWrites(steps))
    decreases |steps|
  {
    if steps != [] {
      var init := steps[..|steps| - 1];
      var w := UpdateWrites(steps);
      var last := steps[|steps| - 1];
      RecordAllUpdates(a, init);
      assert w[..|w| - 1] == UpdateWrites(init);
      assert w[|w| - 1] == (last.param, last.result.update);
      assert RecordAll(a, steps).updates == Put(RecordAll(a, init).updates, last.param, last.result.update);
      assert PutAll(a.updates, w) == Put(PutAll(a.updates, w[..|w| - 1]), last.param, last.result.update);
    }
  }

  lemma {:induction false} RecordAllGradients(a: Aggregate, steps: seq<Step>)
    ensures RecordAll(a, steps).gradients == PutAll(a.gradients, GradientWrites(steps))
    decreases |steps|
  {
    if steps != [] {
      var init := steps[..|steps| - 1];
      var w := GradientWrites(steps);
      var last := steps[|steps| - 1];
      RecordAllGradients(a, init);
      assert w[..|w| - 1] == GradientWrites(init);
      assert w[|w| - 1] == (last.param, last.result.gradient);
      assert RecordAll(a, steps).gradients == Put(RecordAll(a, init).gradients, last.param, last.result.gradient);
      assert PutAll(a.gradients, w) == Put(PutAll(a.gradients, w[..|w| - 1]), last.param, last.result.gradient);
    }
  }

  lemma {:induction false} RecordAllNames(a: Aggregate, steps: seq<Step>)
    ensures RecordAll(a, steps).paramNames == PutAll(a.paramNames, NameWrites(steps))
    decreases |steps|
  {
    if steps != [] {
      var init := steps[..|steps| - 1];
      var w := NameWrites(steps);
      var last := steps[|steps| - 1];
      RecordAllNames(a, init);
      assert w[..|w| - 1] == NameWrites(init);
      assert w[|w| - 1] == (last.param, StepName(last));
      assert RecordAll(a, steps).paramNames == Put(RecordAll(a, init).paramNames, last.param, StepName(last));
      assert PutAll(a.paramNames, w) == Put(PutAll(a.paramNames, w[..|w| - 1]), last.param, StepName(last));
    }
  }

  /** Key order after compile: the keys already present, then each parameter at
      the position of its first scenario application; the same order in all
      three maps. */
  lemma CompileKeyOrder(a: Aggregate, apply: Apply)
    requires WellFormed(a)
    ensures Keys(Compile(a, apply).updates) == Dedup(Keys(a.updates) + Params(Steps(a, apply)))
    ensures Keys(Compile(a, apply).gradients) == Keys(Compile(a, apply).updates)
    ensures Keys(Compile(a, apply).paramNames) == Keys(Compile(a, apply).updates)
  {
    var steps := Steps(a, apply);
    RecordAllSplits(a, steps);
    PutAllKeys(a.updates, UpdateWrites(steps));
    assert Keys(UpdateWrites(steps)) == Params(steps);
  }

  /** Values after compile: for each parameter the last scenario application
      touching it decides its update, its gradient and its display name. */
  lemma CompileValues(a: Aggregate, apply: Apply)
    requires |a.outputLayers| > 0
    ensures ToMap(Compile(a, apply).updates) == ToMap(a.updates) + LastWins(UpdateWrites(Steps(a, apply)))
    ensures ToMap(Compile(a, apply).gradients) == ToMap(a.gradients) + LastWins(GradientWrites(Steps(a, apply)))
    ensures ToMap(Compile(a, apply).paramNames) == ToMap(a.paramNames) + LastWins(NameWrites(Steps(a, apply)))
  {
    var steps := Steps(a, apply);
    RecordAllSplits(a, steps);
    PutAllMeaning(a.updates, UpdateWrites(steps));
    PutAllMeaning(a.gradients, GradientWrites(steps));
    PutAllMeaning(a.paramNames, NameWrites(steps));
  }

  // ---------------------------------------------------------------------------
  // Which parameters compile touches

  lemma ParamsConcat(s: seq<Step>, t: seq<Step>)
    ensures Params(s + t) == Params(s) + Params(t)
  {
  }

  lemma {:induction false} ParamStepsTouch(sc: Scenario, owner: Layer, params: OMap<string, Option<Var>>, cost: Cost, apply: Apply, v: Var)
    ensures v in Params(ParamSteps(sc, owner, params, cost, apply)) <==> Some(v) in Values(params)
    decreases |params|
  {
    if params != [] {
      ParamStepsTouch(sc, owner, params[1..], cost, apply, v);
      var (k, p) := params[0];
      var rest := ParamSteps(sc, owner, params[1..], cost, apply);
      assert Values(params) == [p] + Values(params[1..]);
      if p.Some? {
        var head := [MakeStep(sc, owner, k, p.value, cost, apply)];
        assert ParamSteps(sc, owner, params, cost, apply) == head + rest;
        ParamsConcat(head, rest);
        assert Params(head) == [p.value];
      } else {
        assert ParamSteps(sc, owner, params, cost, apply) == rest;
      }
    }
  }

  lemma {:induction false} ScenarioStepsTouch(scenari: seq<Scenario>, o: Layer, cost: Cost, apply: Apply, v: Var)
    ensures v in Params(ScenarioSteps(scenari, o, cost, apply)) <==> |scenari| > 0 && Some(v) in Values(o.parameters)
    decreases |scenari|
  {
    if scenari != [] {
      ScenarioStepsTouch(scenari[1..], o, cost, apply, v);
      ParamStepsTouch(scenari[0], o, o.parameters, cost, apply, v);
      ParamsConcat(ParamSteps(scenari[0], o, o.parameters, cost, apply), ScenarioSteps(scenari[1..], o, cost, apply));
    }
  }

  /** A parameter of an output layer is touched by the first loop iff that
      output layer has at least one scenario. */
  ghost predicate TouchedAsOutput(outputs: seq<Layer>, v: Var) {
    exists i :: 0 <= i < |outputs| && |outputs[i].scenari| > 0 && Some(v) in Values(outputs[i].parameters)
  }

  lemma {:induction false} OutputStepsTouch(outputs: seq<Layer>, cost: Cost, apply: Apply, v: Var)
    ensures v in Params(OutputSteps(outputs, cost, apply)) <==> TouchedAsOutput(outputs, v)
    decreases |outputs|
  {
    if outputs != [] {
      OutputStepsTouch(outputs[1..], cost, apply, v);
      ScenarioStepsTouch(outputs[0].scenari, outputs[0], cost, apply, v);
      ParamsConcat(ScenarioSteps(outputs[0].scenari, outputs[0], cost, apply), OutputSteps(outputs[1..], cost, apply));
      if TouchedAsOutput(outputs, v) {
        var i :| 0 <= i < |outputs| && |outputs[i].scenari| > 0 && Some(v) in Values(outputs[i].parameters);
        if i > 0 {
          assert outputs[1..][i - 1] == outputs[i];
        }
      }
      if TouchedAsOutput(outputs[1..], v) {
        var i :| 0 <= i < |outputs[1..]| && |outputs[1..][i].scenari| > 0 && Some(v) in Values(outputs[1..][i].parameters);
        assert outputs[i + 1] == outputs[1..][i];
      }
    }
  }

  lemma {:induction false} ApplyAllTouch(scenari: seq<Scenario>, owner: Layer, key: string, p: Var, cost: Cost, apply: Apply, v: Var)
    ensures v in Params(ApplyAll(scenari, owner, key, p, cost, apply)) <==> |scenari| > 0 && v == p
    decreases |scenari|
  {
    if scenari != [] {
      ApplyAllTouch(scenari[1..], owner, key, p, cost, apply, v);
      var head := [MakeStep(scenari[0], owner, key, p, cost, apply)];
      ParamsConcat(head, ApplyAll(scenari[1..], owner, key, p, cost, apply));
      assert Params(head) == [p];
    }
  }

  lemma {:induction false} UpstreamParamStepsTouch(owner: Layer, params: OMap<string, Option<Var>>, last: Layer, cost: Cost, apply: Apply, v: Var)
    ensures v in Params(UpstreamParamSteps(owner, params, last, cost, apply))
      <==> |last.scenari| + |owner.scenari| > 0 && Some(v) in Values(params)
    decreases |params|
  {
    if params != [] {
      UpstreamParamStepsTouch(owner, params[1..], last, cost, apply, v);
      var (k, p) := params[0];
      var rest := UpstreamParamSteps(owner, params[1..], last, cost, apply);
      assert Values(params) == [p] + Values(params[1..]);
      if p.Some? {
        var a1 := ApplyAll(last.scenari, owner, k, p.value, cost, apply);
        var a2 := ApplyAll(owner.scenari, owner, k, p.value, cost, apply);
        ApplyAllTouch(last.scenari, owner, k, p.value, cost, apply, v);
        ApplyAllTouch(owner.scenari, owner, k, p.value, cost, apply, v);
        ParamsConcat(a1, a2);
        ParamsConcat(a1 + a2, rest);
      } else {
        assert [] + rest == rest;
      }
    }
  }

  /** A parameter of an upstream layer is touched by the second loop iff the
      last output layer or the layer itself has at least one scenario. */
  ghost predicate TouchedUpstream(layers: seq<Layer>, last: Layer, v: Var) {
    exists i :: 0 <= i < |layers| && |last.scenari| + |layers[i].scenari| > 0 && Some(v) in Values(layers[i].parameters)
  }

  lemma {:induction false} UpstreamStepsTouch(layers: seq<Layer>, last: Layer, cost: Cost, apply: Apply, v: Var)
    ensures v in Params(UpstreamSteps(layers, last, cost, apply)) <==> TouchedUpstream(layers, last, v)
    decreases |layers|
  {
    if layers != [] {
      UpstreamStepsTouch(layers[1..], last, cost, apply, v);
      UpstreamParamStepsTouch(layers[0], layers[0].parameters, last, cost, apply, v);
      ParamsConcat(UpstreamParamSteps(layers[0], layers[0].parameters, last, cost, apply), UpstreamSteps(layers[1..], last, cost, apply));
      if TouchedUpstream(layers, last, v) {
        var i :| 0 <= i < |layers| && |last.scenari| + |layers[i].scenari| > 0 && Some(v) in Values(layers[i].parameters);
        if i > 0 {
          assert layers[1..][i - 1] == layers[i];
        }
      }
      if TouchedUpstream(layers[1..], last, v) {
        var i :| 0 <= i < |layers[1..]| && |last.scenari| + |layers[1..][i].scenari| > 0 && Some(v) in Values(layers[1..][i].parameters);
        assert layers[i + 1] == layers[1..][i];
      }
    }
  }

  /** The keys of a freshly built aggregate after compile: exactly the set
      parameter stores of an output layer that has scenari, and of an upstream
      layer when it or the last output layer has scenari. */
  lemma CompileKeySet(a: Aggregate, apply: Apply, v: Var)
    requires WellFormed(a) && Keys(a.updates) == []
    ensures v in Keys(Compile(a, apply).updates)
      <==> TouchedAsOutput(a.outputLayers, v) || TouchedUpstream(a.layers, LastOutput(a), v)
  {
    var first := OutputSteps(a.outputLayers, a.cost, apply);
    var second := UpstreamSteps(a.layers, LastOutput(a), a.cost, apply);
    var ps := Params(Steps(a, apply));
    CompileKeyOrder(a, apply);
    assert Keys(a.updates) + ps == ps;
    DedupMembers(ps);
    assert v in Keys(Compile(a, apply).updates) <==> v in ps;
    ParamsConcat(first, second);
    assert v in ps <==> v in Params(first) || v in Params(second);
    OutputStepsTouch(a.outputLayers, a.cost, apply, v);
    UpstreamStepsTouch(a.layers, LastOutput(a), a.cost, apply, v);
  }

  // ---------------------------------------------------------------------------
  // Which scenario produced each entry

  /** Where a step may come from: a scenario of its own output layer, or for an
      upstream layer, a scenario of the last output layer or of the layer itself.
      Its result is always the scenario applied to its owner, key and the cost. */
  ghost predicate Provenance(a: Aggregate, apply: Apply, s: Step)
    requires |a.outputLayers| > 0
  {
    && s.result == apply(s.scenario, s.owner, s.key, a.cost)
    && (s.key, Some(s.param)) in s.owner.parameters
    && (|| (s.owner in a.outputLayers && s.scenario in s.owner.scenari)
        || (s.owner in a.layers && s.scenario in LastOutput(a).scenari + s.owner.scenari))
  }

  lemma {:induction false} ParamStepsOrigin(sc: Scenario, owner: Layer, params: OMap<string, Option<Var>>, cost: Cost, apply: Apply)
    ensures forall s :: s in ParamSteps(sc, owner, params, cost, apply) ==>
      s.owner == owner && s.scenario == sc && (s.key, Some(s.param)) in params && s.result == apply(sc, owner, s.key, cost)
    decreases |params|
  {
    if params != [] {
      var rest := ParamSteps(sc, owner, params[1..], cost, apply);
      ParamStepsOrigin(sc, owner, params[1..], cost, apply);
      assert forall x :: x in params[1..] ==> x in params;
      var (k, p) := params[0];
      assert params[0] in params;
      if p.Some? {
        assert ParamSteps(sc, owner, params, cost, apply) == [MakeStep(sc, owner, k, p.value, cost, apply)] + rest;
      } else {
        assert ParamSteps(sc, owner, params, cost, apply) == rest;
      }
    }
  }

  lemma {:induction false} ScenarioStepsOrigin(scenari: seq<Scenario>, o: Layer, cost: Cost, apply: Apply)
    ensures forall s :: s in ScenarioSteps(scenari, o, cost, apply) ==>
      s.owner == o && s.scenario in scenari && (s.key, Some(s.param)) in o.parameters && s.result == apply(s.scenario, o, s.key, cost)
    decreases |scenari|
  {
    if scenari != [] {
      ScenarioStepsOrigin(scenari[1..], o, cost, apply);
      ParamStepsOrigin(scenari[0], o, o.parameters, cost, apply);
    }
  }

  lemma {:induction false} OutputStepsOrigin(outputs: seq<Layer>, cost: Cost, apply: Apply)
    ensures forall s :: s in OutputSteps(outputs, cost, apply) ==>
      s.owner in outputs && s.scenario in s.owner.scenari && (s.key, Some(s.param)) in s.owner.parameters
      && s.result == apply(s.scenario, s.owner, s.key, cost)
    decreases |outputs|
  {
    if outputs != [] {
      OutputStepsOrigin(outputs[1..], cost, apply);
      ScenarioStepsOrigin(outputs[0].scenari, outputs[0], cost, apply);
    }
  }

  lemma {:induction false} ApplyAllOrigin(scenari: seq<Scenario>, owner: Layer, key: string, p: Var, cost: Cost, apply: Apply)
    ensures forall s :: s in ApplyAll(scenari, owner, key, p, cost, apply) ==>
      s.owner == owner && s.key == key && s.param == p && s.scenario in scenari && s.result == apply(s.scenario, owner, key, cost)
    decreases |scenari|
  {
    if scenari != [] {
      ApplyAllOrigin(scenari[1..], owner, key, p, cost, apply);
    }
  }

  lemma {:induction false} UpstreamParamStepsOrigin(owner: Layer, params: OMap<string, Option<Var>>, last: Layer, cost: Cost, apply: Apply)
    ensures forall s :: s in UpstreamParamSteps(owner, params, last, cost, apply) ==>
      s.owner == owner && s.scenario in last.scenari + owner.scenari && (s.key, Some(s.param)) in params
      && s.result == apply(s.scenario, owner, s.key, cost)
    decreases |params|
  {
    if params != [] {
      UpstreamParamStepsOrigin(owner, params[1..], last, cost, apply);
      var (k, p) := params[0];
      if p.Some? {
        ApplyAllOrigin(last.scenari, owner, k, p.value, cost, apply);
        ApplyAllOrigin(owner.scenari, owner, k, p.value, cost, apply);
      }
    }
  }

  lemma {:induction false} UpstreamStepsOrigin(layers: seq<Layer>, last: Layer, cost: Cost, apply: Apply)
    ensures forall s :: s in UpstreamSteps(layers, last, cost, apply) ==>
      s.owner in layers && s.scenario in last.scenari + s.owner.scenari && (s.key, Some(s.param)) in s.owner.parameters
      && s.result == apply(s.scenario, s.owner, s.key, cost)
    decreases |layers|
  {
    if layers != [] {
      UpstreamStepsOrigin(layers[1..], last, cost, apply);
      UpstreamParamStepsOrigin(layers[0], layers[0].parameters, last, cost, apply);
    }
  }

  /** Every scenario application of compile is accounted for: in particular the
      scenari of an output layer other than the last never reach an upstream
      layer's parameters. */
  lemma StepsProvenance(a: Aggregate, apply: Apply)
    requires |a.outputLayers| > 0
    ensures forall s :: s in Steps(a, apply) ==> Provenance(a, apply, s)
  {
    OutputStepsOrigin(a.outputLayers, a.cost, apply);
    UpstreamStepsOrigin(a.layers, LastOutput(a), a.cost, apply);
  }

  /** For a freshly built aggregate, each entry compile leaves comes from one
      scenario application, the last one that touched the parameter: it fixes
      the update, the gradient and the display name `"<owner>.<key>"` alike. */
  lemma CompileEntries(a: Aggregate, apply: Apply, v: Var)
    requires WellFormed(a) && Keys(a.updates) == []
    requires v in Keys(Compile(a, apply).updates)
    ensures var steps := Steps(a, apply);
      var c := Compile(a, apply);
      exists i :: 0 <= i < |steps| && steps[i].param == v
        && (forall j :: i < j < |steps| ==> steps[j].param != v)
        && Provenance(a, apply, steps[i])
        && Get(c.updates, v) == Some(steps[i].result.update)
        && Get(c.gradients, v) == Some(steps[i].result.gradient)
        && Get(c.paramNames, v) == Some(Qualified(steps[i].owner.name, steps[i].key))
  {
    var steps := Steps(a, apply);
    var c := Compile(a, apply);
    var wu, wg, wn := UpdateWrites(steps), GradientWrites(steps), NameWrites(steps);
    FreshCompile(a, apply);
    assert v in Params(steps) by {
      FromEmpty(wu);
      WritesKeys(steps);
      DedupMembers(Params(steps));
    }
    LastStepWins(steps, v);
    var i :| 0 <= i < |steps| && steps[i].param == v
      && (forall j :: i < j < |steps| ==> steps[j].param != v)
      && v in LastWins(wu) && v in LastWins(wg) && v in LastWins(wn)
      && LastWins(wu)[v] == steps[i].result.update
      && LastWins(wg)[v] == steps[i].result.gradient
      && LastWins(wn)[v] == StepName(steps[i]);
    assert Get(c.updates, v) == Some(steps[i].result.update) by {
      FromEmpty(wu);
      GetToMap(c.updates, v);
    }
    assert Get(c.gradients, v) == Some(steps[i].result.gradient) by {
      FromEmpty(wg);
      WritesKeys(steps);
      DedupMembers(Params(steps));
      GetToMap(c.gradients, v);
    }
    assert Get(c.paramNames, v) == Some(StepName(steps[i])) by {
      FromEmpty(wn);
      WritesKeys(steps);
      DedupMembers(Params(steps));
      GetToMap(c.paramNames, v);
    }
    assert Provenance(a, apply, steps[i]) by {
      StepsProvenance(a, apply);
      assert steps[i] in steps;
    }
    assert StepName(steps[i]) == Qualified(steps[i].owner.name, steps[i].key);
  }

  lemma FreshCompile(a: Aggregate, apply: Apply)
    requires WellFormed(a) && Keys(a.updates) == []
    ensures var steps := Steps(a, apply);
      var c := Compile(a, apply);
      && c.updates == PutAll([], UpdateWrites(steps))
      && c.gradients == PutAll([], GradientWrites(steps))
      && c.paramNames == PutAll([], NameWrites(steps))
  {
    assert a.updates == [] && a.gradients == [] && a.paramNames == [];
    RecordAllSplits(a, Steps(a, apply));
  }

  /** The last step touching a parameter decides all three of its writes. */
  lemma LastStepWins(steps: seq<Step>, v: Var)
    requires v in Params(steps)
    ensures exists i ::
              && 0 <= i < |steps| && steps[i].param == v
              && (forall j :: i < j < |steps| ==> steps[j].param != v)
              && v in LastWins(UpdateWrites(steps)) && v in LastWins(GradientWrites(steps)) && v in LastWins(NameWrites(steps))
              && LastWins(UpdateWrites(steps))[v] == steps[i].result.update
              && LastWins(GradientWrites(steps))[v] == steps[i].result.gradient
              && LastWins(NameWrites(steps))[v] == StepName(steps[i])
  {
    var wu, wg, wn := UpdateWrites(steps), GradientWrites(steps), NameWrites(steps);
    WritesKeys(steps);
    LastWriteExists(wu, v);
    var i :| LastWrite(wu, i) && wu[i].0 == v;
    forall j | i < j < |steps| ensures steps[j].param != v && wg[j].0 != wg[i].0 && wn[j].0 != wn[i].0 {
      assert wu[j].0 != wu[i].0;
    }
    assert LastWrite(wg, i) && LastWrite(wn, i);
    LastWinsLast(wu);
    LastWinsLast(wg);
    LastWinsLast(wn);
  }

  lemma {:induction false} ApplyAllShape(scenari: seq<Scenario>, owner: Layer, key: string, v: Var, cost: Cost, apply: Apply)
    ensures var steps := ApplyAll(scenari, owner, key, v, cost, apply);
      |steps| == |scenari| && forall i :: 0 <= i < |scenari| ==> steps[i] == MakeStep(scenari[i], owner, key, v, cost, apply)
    decreases |scenari|
  {
    if scenari != [] {
      ApplyAllShape(scenari[1..], owner, key, v, cost, apply);
      var steps := ApplyAll(scenari, owner, key, v, cost, apply);
      forall i | 0 <= i < |scenari| ensures steps[i] == MakeStep(scenari[i], owner, key, v, cost, apply) {
        if i > 0 {
          assert scenari[1..][i - 1] == scenari[i];
        }
      }
    }
  }

  /** Within one upstream layer's block of applications, a store set on a layer
      that has scenari of its own is last touched by that layer's last scenario. */
  lemma {:induction false} UpstreamParamLast(owner: Layer, params: OMap<string, Option<Var>>, last: Layer, cost: Cost, apply: Apply, v: Var)
    requires |owner.scenari| > 0
    requires v in Params(UpstreamParamSteps(owner, params, last, cost, apply))
    ensures exists i, k :: OwnLastAt(UpstreamParamSteps(owner, params, last, cost, apply), params, owner, cost, apply, v, i, k)
    decreases |params|
  {
    var ups := UpstreamParamSteps(owner, params, last, cost, apply);
    var (k0, p0) := params[0];
    var rest := UpstreamParamSteps(owner, params[1..], last, cost, apply);
    var block := if p0.Some? then ApplyAll(last.scenari, owner, k0, p0.value, cost, apply) + ApplyAll(owner.scenari, owner, k0, p0.value, cost, apply) else [];
    assert ups == block + rest;
    ParamsConcat(block, rest);
    if v in Params(rest) {
      UpstreamParamLast(owner, params[1..], last, cost, apply, v);
      var i, k :| OwnLastAt(rest, params[1..], owner, cost, apply, v, i, k);
      OwnLastShift(block, rest, params, owner, cost, apply, v, i, k);
    } else {
      assert p0.Some?;
      OwnBlockLast(owner, k0, p0.value, last, cost, apply, rest, v);
      assert params[0] in params;
      assert OwnLastAt(ups, params, owner, cost, apply, v, |block| - 1, k0);
    }
  }

  /** Position `i` of `ups` is the last touch of `v`, and it is the owner's last
      scenario applied to a key `k` under which `params` holds `v`. */
  predicate OwnLastAt(ups: seq<Step>, params: OMap<string, Option<Var>>, owner: Layer, cost: Cost, apply: Apply, v: Var, i: int, k: string) {
    && |owner.scenari| > 0 && 0 <= i < |ups| && (k, Some(v)) in params
    && ups[i] == MakeStep(owner.scenari[|owner.scenari| - 1], owner, k, v, cost, apply)
    && (forall j :: i < j < |ups| ==> ups[j].param != v)
  }

  lemma OwnLastShift(block: seq<Step>, rest: seq<Step>, params: OMap<string, Option<Var>>, owner: Layer, cost: Cost, apply: Apply, v: Var, i: int, k: string)
    requires params != [] && OwnLastAt(rest, params[1..], owner, cost, apply, v, i, k)
    ensures OwnLastAt(block + rest, params, owner, cost, apply, v, |block| + i, k)
  {
    assert (block + rest)[|block| + i] == rest[i];
    assert (k, Some(v)) in params;
    LaterInTail(block, rest, i, v);
  }

  /** The block of one set upstream parameter ends with the layer's own last
      scenario, and nothing after it touches the store when `rest` does not. */
  lemma OwnBlockLast(owner: Layer, k: string, p: Var, last: Layer, cost: Cost, apply: Apply, rest: seq<Step>, v: Var)
    requires |owner.scenari| > 0 && v !in Params(rest)
    requires v in Params(ApplyAll(last.scenari, owner, k, p, cost, apply) + ApplyAll(owner.scenari, owner, k, p, cost, apply))
    ensures var block := ApplyAll(last.scenari, owner, k, p, cost, apply) + ApplyAll(owner.scenari, owner, k, p, cost, apply);
      && v == p && |block| > 0
      && (block + rest)[|block| - 1] == MakeStep(owner.scenari[|owner.scenari| - 1], owner, k, v, cost, apply)
      && (forall j :: |block| - 1 < j < |block + rest| ==> (block + rest)[j].param != v)
  {
    var first := ApplyAll(last.scenari, owner, k, p, cost, apply);
    var own := ApplyAll(owner.scenari, owner, k, p, cost, apply);
    var block := first + own;
    assert v == p by {
      ApplyAllOrigin(last.scenari, owner, k, p, cost, apply);
      ApplyAllOrigin(owner.scenari, owner, k, p, cost, apply);
      var t :| 0 <= t < |block| && Params(block)[t] == v;
      assert block[t] in block;
    }
    ApplyAllShape(owner.scenari, owner, k, p, cost, apply);
    assert (block + rest)[|block| - 1] == own[|own| - 1];
    UntouchedTail(block, rest, v);
  }

  /** A last touch inside `rest` stays the last touch after `block` is put in front. */
  lemma LaterInTail(block: seq<Step>, rest: seq<Step>, i: nat, v: Var)
    requires i < |rest| && forall j :: i < j < |rest| ==> rest[j].param != v
    ensures forall j :: |block| + i < j < |block + rest| ==> (block + rest)[j].param != v
  {
    forall j | |block| + i < j < |block + rest| ensures (block + rest)[j].param != v {
      assert (block + rest)[j] == rest[j - |block|];
    }
  }

  /** Nothing after `block` touches a store that `rest` does not touch. */
  lemma UntouchedTail(block: seq<Step>, rest: seq<Step>, v: Var)
    requires v !in Params(rest)
    ensures forall j :: |block| <= j < |block + rest| ==> (block + rest)[j].param != v
  {
    forall j | |block| <= j < |block + rest| ensures (block + rest)[j].param != v {
      assert (block + rest)[j] == rest[j - |block|];
      assert Params(rest)[j - |block|] == rest[j - |block|].param;
    }
  }

  lemma {:induction false} UpstreamStepsConcat(xs: seq<Layer>, ys: seq<Layer>, last: Layer, cost: Cost, apply: Apply)
    ensures UpstreamSteps(xs + ys, last, cost, apply) == UpstreamSteps(xs, last, cost, apply) + UpstreamSteps(ys, last, cost, apply)
    decreases |xs|
  {
    if xs == [] {
      assert xs + ys == ys;
    } else {
      assert (xs + ys)[0] == xs[0] && (xs + ys)[1..] == xs[1..] + ys;
      UpstreamStepsConcat(xs[1..], ys, last, cost, apply);
    }
  }

  /** `UpstreamSteps` cut around the layer at position `j`. */
  lemma UpstreamStepsSplit(layers: seq<Layer>, j: nat, last: Layer, cost: Cost, apply: Apply)
    requires j < |layers|
    ensures UpstreamSteps(layers, last, cost, apply)
      == UpstreamSteps(layers[..j], last, cost, apply)
         + UpstreamParamSteps(layers[j], layers[j].parameters, last, cost, apply)
         + UpstreamSteps(layers[j + 1..], last, cost, apply)
  {
    var one := [layers[j]];
    assert layers == layers[..j] + (one + layers[j + 1..]);
    UpstreamStepsConcat(layers[..j], one + layers[j + 1..], last, cost, apply);
    UpstreamStepsConcat(one, layers[j + 1..], last, cost, apply);
    assert UpstreamSteps(one, last, cost, apply) == UpstreamParamSteps(layers[j], layers[j].parameters, last, cost, apply) + [] by {
      assert one[1..] == [];
    }
  }

  /** Index `|pre| + i` is the last write to `v` in `pre + mid + post` when `i`
      is its last write in `mid` and `post` does not touch it. */
  lemma LastInMiddle(pre: seq<Step>, mid: seq<Step>, post: seq<Step>, i: nat, v: Var)
    requires i < |mid| && mid[i].param == v
    requires forall j :: i < j < |mid| ==> mid[j].param != v
    requires v !in Params(post)
    ensures var steps := pre + mid + post;
      && steps[|pre| + i] == mid[i]
      && LastWrite(UpdateWrites(steps), |pre| + i)
      && LastWrite(GradientWrites(steps), |pre| + i)
      && LastWrite(NameWrites(steps), |pre| + i)
  {
    var steps := pre + mid + post;
    forall j | |pre| + i < j < |steps| ensures steps[j].param != v {
      if j < |pre| + |mid| {
        assert steps[j] == mid[j - |pre|];
      } else {
        assert steps[j] == post[j - |pre| - |mid|];
        assert Params(post)[j - |pre| - |mid|] == steps[j].param;
      }
    }
  }

  /** For a store set on the upstream layer at position `j` that has scenari
      of its own, and touched by no later upstream layer, compile leaves the
      update and gradient of that layer's last scenario, whatever the last
      output layer's scenari computed before it, and the layer's name. */
  lemma OwnScenariLast(a: Aggregate, apply: Apply, j: nat, v: Var)
    requires |a.outputLayers| > 0 && j < |a.layers| && |a.layers[j].scenari| > 0
    requires v in Params(UpstreamParamSteps(a.layers[j], a.layers[j].parameters, LastOutput(a), a.cost, apply))
    requires v !in Params(UpstreamSteps(a.layers[j + 1..], LastOutput(a), a.cost, apply))
    ensures var owner := a.layers[j];
      var c := Compile(a, apply);
      exists k ::
        && (k, Some(v)) in owner.parameters
        && Get(c.updates, v) == Some(apply(owner.scenari[|owner.scenari| - 1], owner, k, a.cost).update)
        && Get(c.gradients, v) == Some(apply(owner.scenari[|owner.scenari| - 1], owner, k, a.cost).gradient)
        && Get(c.paramNames, v) == Some(Qualified(owner.name, k))
  {
    var owner := a.layers[j];
    var sc := owner.scenari[|owner.scenari| - 1];
    var steps := Steps(a, apply);
    OwnStepIsLast(a, apply, j, v);
    var n, k :| && (k, Some(v)) in owner.parameters && 0 <= n < |steps| && steps[n] == MakeStep(sc, owner, k, v, a.cost, apply)
      && LastWrite(UpdateWrites(steps), n) && LastWrite(GradientWrites(steps), n) && LastWrite(NameWrites(steps), n);
    CompiledAt(a, apply, n);
  }

  /** Under the hypotheses of `OwnScenariLast`, the layer's last scenario on
      the store is the last application of compile to touch it. */
  lemma OwnStepIsLast(a: Aggregate, apply: Apply, j: nat, v: Var)
    requires |a.outputLayers| > 0 && j < |a.layers| && |a.layers[j].scenari| > 0
    requires v in Params(UpstreamParamSteps(a.layers[j], a.layers[j].parameters, LastOutput(a), a.cost, apply))
    requires v !in Params(UpstreamSteps(a.layers[j + 1..], LastOutput(a), a.cost, apply))
    ensures var owner := a.layers[j];
      var steps := Steps(a, apply);
      exists n, k ::
        && (k, Some(v)) in owner.parameters
        && 0 <= n < |steps|
        && steps[n] == MakeStep(owner.scenari[|owner.scenari| - 1], owner, k, v, a.cost, apply)
        && LastWrite(UpdateWrites(steps), n) && LastWrite(GradientWrites(steps), n) && LastWrite(NameWrites(steps), n)
  {
    var owner := a.layers[j];
    var last := LastOutput(a);
    var sc := owner.scenari[|owner.scenari| - 1];
    var out := OutputSteps(a.outputLayers, a.cost, apply);
    var pre := UpstreamSteps(a.layers[..j], last, a.cost, apply);
    var ups := UpstreamParamSteps(owner, owner.parameters, last, a.cost, apply);
    var post := UpstreamSteps(a.layers[j + 1..], last, a.cost, apply);
    var steps := Steps(a, apply);
    assert steps == (out + pre) + ups + post by {
      UpstreamStepsSplit(a.layers, j, last, a.cost, apply);
    }
    UpstreamParamLast(owner, owner.parameters, last, a.cost, apply, v);
    var i, k :| OwnLastAt(ups, owner.parameters, owner, a.cost, apply, v, i, k);
    LastInMiddle(out + pre, ups, post, i, v);
  }

  /** The last write of the step at `n` is what compile leaves for its store. */
  lemma CompiledAt(a: Aggregate, apply: Apply, n: nat)
    requires |a.outputLayers| > 0
    requires LastWrite(UpdateWrites(Steps(a, apply)), n)
    requires LastWrite(GradientWrites(Steps(a, apply)), n)
    requires LastWrite(NameWrites(Steps(a, apply)), n)
    ensures var s := Steps(a, apply)[n];
      var c := Compile(a, apply);
      && Get(c.updates, s.param) == Some(s.result.update)
      && Get(c.gradients, s.param) == Some(s.result.gradient)
      && Get(c.paramNames, s.param) == Some(StepName(s))
  {
    var steps := Steps(a, apply);
    var c := Compile(a, apply);
    var v := steps[n].param;
    CompileValues(a, apply);
    LastWinsLast(UpdateWrites(steps));
    LastWinsLast(GradientWrites(steps));
    LastWinsLast(NameWrites(steps));
    assert UpdateWrites(steps)[n] == (v, steps[n].result.update);
    assert GradientWrites(steps)[n] == (v, steps[n].result.gradient);
    assert NameWrites(steps)[n] == (v, StepName(steps[n]));
    GetToMap(c.updates, v);
    GetToMap(c.gradients, v);
    GetToMap(c.paramNames, v);
  }

  /** Two output layers, the first with a scenario and the second without, and
      an upstream layer without scenari: the upstream parameter gets no entry,
      since only the last output layer's scenari are applied upstream. */
  lemma UpstreamSkipsEarlierOutputs(apply: Apply, sc: Scenario, p: Var)
    ensures var first := Layer("first", [], [sc], []);
      var second := Layer("second", [], [], []);
      var upstream := Layer("upstream", [("W", Some(p))], [], []);
      var a := Extend(New(first, [upstream], CostTerm(0)), Some(New(second, [], CostTerm(1))));
      p !in Keys(Compile(a, apply).updates)
  {
    var first := Layer("first", [], [sc], []);
    var second := Layer("second", [], [], []);
    var upstream := Layer("upstream", [("W", Some(p))], [], []);
    var a := Extend(New(first, [upstream], CostTerm(0)), Some(New(second, [], CostTerm(1))));
    assert a.outputLayers == [first, second] && a.layers == [upstream];
    CompileKeySet(a, apply, p);
    assert !TouchedAsOutput(a.outputLayers, p) by {
      assert Values(first.parameters) == [] && Values(second.parameters) == [];
    }
    assert LastOutput(a) == second;
    assert !TouchedUpstream(a.layers, second, p) by {
      assert |second.scenari| + |upstream.scenari| == 0;
    }
  }
}
